=== FILE: README.md ===
# capg-firewall-rule-operator, modelled in Dafny

The operator watches `GCPCluster` objects of the Cluster API GCP provider. For
each cluster it keeps two cloud resources in step:

- a bastion SSH ingress firewall rule;
- an edge security policy on the Kubernetes API load balancer's backend service.

While the cluster lives, the operator holds a finalizer on it and creates or
updates both resources. When the cluster is deleted, it removes both and then
releases the finalizer.

This project models the operator's core as pure functions over immutable data:

- the GCPCluster controller (`Controller`);
- the bastion rule reconciler (`FirewallReconciler`) and the older firewall
  client (`FirewallClient`);
- the API security policy reconciler (`SecurityReconciler`);
- the security policy client (`SecurityClient`) and its diff engine (`PolicyDiff`);
- the policy types and their translation to the compute API (`SecurityTypes`);
- the NAT IP resolver (`NatResolver`);
- the strict CIDR allow-list parser (`Cidr`);
- the compute-API helpers (`Google`);
- the resource names (`Names`).

Collaborators are not modelled: the Kubernetes store, the compute API and the
NAT resolver seen from its callers.

- What a collaborator read returns is a parameter.
- A mutating call is answered by a responder function.
- Every operation returns `Run(calls, outcome)`: the calls it made, in order,
  and the error it returned. So "the finalizer is added before any rule is
  applied" or "the policy is never deleted while a backend service is
  attached" is a statement about that call list.
- `net.ParseCIDR` is a parameter `valid: string -> bool`. The one fact assumed
  of it is that the empty string is no CIDR, and only the lemmas that need
  this fact require it.

The security policy on the remote side is a map from a signed 32-bit priority
to a rule. The diff engine turns the desired rule list into:

- one patch or create per desired rule, in order;
- a set of priorities to remove.

The default rule at `math.MaxInt32` is never removed. The proved theorems say
what the remote policy holds after the calls run:

- its keys (`PolicyDiff.PlanKeys`);
- its contents (`PolicyDiff.PlanValues`);
- the default rule's survival (`PolicyDiff.DefaultRuleSurvives`);
- that every call is one the remote accepts (`PolicyDiff.PlanExecutable`);
- end to end through the client (`SecurityClient.ExistingPolicyKeys`,
  `SecurityClient.ExistingPolicyValues`) and through the reconciler
  (`SecurityReconciler.ReconciledPolicyKeys`,
  `SecurityReconciler.ReconciledPolicyValues`).

Where this repository's files belong to different revisions, each is modelled
as written. The one exception is the controller's invalid-CIDR error, which
names the annotation actually read (see "## Findings").

- `controllers/gcpcluster.go` builds the bastion rule and the API policy
  itself. It has no default allow-lists and no priority-2 rule, and its
  annotation parser has no empty-value shortcut.
- `pkg/firewall/reconciler.go` and `pkg/security/reconciler.go` delegate to the
  shared parser and add the default allow-lists.
- `pkg/firewall/client.go` is the older firewall client. It reads the
  `.../whitelist` annotation and filters out invalid CIDRs instead of
  rejecting them.

Behaviour worth noting:

- Re-applying an unchanged policy is not free of rule calls: every desired rule
  is patched again, and nothing is created or deleted
  (`PolicyDiff.ReapplyOnlyPatches`).
- A present but empty allow-list annotation is accepted as "no ranges" by the
  shared parser (`Cidr.ParseFromCommaSeparated`). Only the controller's own
  parser rejects it (`Controller.EmptyAnnotationRejected`).
- The priority-2 default allow-list rule is emitted even when the configured
  list is empty (`SecurityReconciler.DesiredPolicy`).
- No NAT IPs is an error (`NatResolver.GetIPs`).

## Model

| member | source | states |
|---|---|---|
| Strings.Split | pkg/cidr/cidr.go:15 | `strings.Split` on a comma: at least one piece, none containing the separator |
| Strings.JoinSplit | pkg/cidr/cidr.go:15 | joining the pieces of a split with the separator gives back the original string |
| Strings.SplitJoin | pkg/cidr/cidr.go:15 | splitting the join of separator-free pieces gives back the pieces |
| Strings.SplitLength | pkg/cidr/cidr.go:15 | a split has exactly one more piece than the string has separators |
| Strings.LastIndex | pkg/google/common.go:27 | `strings.LastIndex`: -1 when the character is absent, otherwise a position holding it with none after |
| Cidr.ValidFrom | pkg/cidr/cidr.go:16-22 | the validation loop answers true exactly when every remaining token parses as a CIDR |
| Cidr.ParseFromCommaSeparated | pkg/cidr/cidr.go:10-24 | "" is the empty list; otherwise the whole comma-split when every piece is a CIDR, else an error naming the value; it fails exactly when a piece is invalid |
| Cidr.ParseRoundTrip | pkg/cidr/cidr.go:10-24 | an accepted value is recovered by joining the parsed list with commas |
| Cidr.JoinParses | pkg/cidr/cidr.go:10-24 | a non-empty list of comma-free CIDRs is exactly what its comma-join parses to |
| Cidr.ParseLength | pkg/cidr/cidr.go:15-23 | an accepted non-empty value yields one CIDR more than it has commas |
| Cidr.EmptyTokenRejected | pkg/cidr/cidr.go:15-21 | a leading, trailing or doubled comma makes the whole value invalid |
| Google.GetResourceName | pkg/google/common.go:21-28 | "" for a nil link; otherwise a slash-free suffix of the link that follows its last slash, the whole link when it has none |
| Names.BastionFirewallRuleNameInjective | pkg/firewall/reconciler.go:77-79 | two clusters never share a bastion firewall rule name |
| Names.BastionTagInjective | pkg/firewall/reconciler.go:43 | two clusters never share a bastion target tag |
| Names.APISecurityPolicyNameInjective | pkg/security/reconciler.go:133-135 | two clusters never share an API security policy name |
| FirewallReconciler.DesiredRule | pkg/firewall/reconciler.go:39-62 | the rule is always the SSH/TCP ingress rule to the bastion tag; its ranges are the defaults without or with an empty annotation, the annotation's CIDRs followed by the defaults when it parses, and an invalid value is an error naming it |
| FirewallReconciler.IPRangesFromAnnotation | pkg/firewall/reconciler.go:81-89 | no bastion annotation, or an empty one, gives no ranges; an error naming the value exactly when a piece is no CIDR; otherwise the whole comma-split, all valid |
| FirewallReconciler.Reconcile | pkg/firewall/reconciler.go:39-65 | at most one call; no call exactly when the annotation is rejected; any call is `ApplyRule` with the desired rule (annotation CIDRs then defaults), and the client's answer is the outcome; without a call the outcome is the parse error naming the value |
| FirewallReconciler.ReconcileDelete | pkg/firewall/reconciler.go:67-70 | exactly one call, deleting the rule by its deterministic name |
| FirewallReconciler.DeleteTargetsAppliedRule | pkg/firewall/reconciler.go:42-69 | the deletion path deletes the very rule name the normal path applies |
| FirewallReconciler.DuplicatesKept | pkg/firewall/reconciler.go:48 | a range listed both in the annotation and in the defaults appears twice in the rule |
| FirewallClient.BastionFirewallPolicyRuleName | pkg/firewall/client.go:200-202 | the older client names the rule exactly as the reconciler does |
| FirewallClient.FilterValid | pkg/firewall/client.go:186-194 | keeps exactly the tokens that are CIDRs, in order, as a subsequence; keeps all exactly when all are valid |
| FirewallClient.FilterValidCounts | pkg/firewall/client.go:186-194 | each valid token is kept as often as it occurs, each invalid one never |
| FirewallClient.GetIPRangesFromAnnotation | pkg/firewall/client.go:180-198 | never an error: no `whitelist` annotation gives no ranges, otherwise exactly the filtered comma-split: the valid CIDR pieces in order |
| FirewallClient.LenientAgreesWithStrict | pkg/firewall/client.go:180-198 | on any value the strict parser accepts, the lenient filter returns the same list |
| FirewallClient.FilterKeepsAllValid | pkg/firewall/client.go:186-194 | the filter returns a list of valid CIDRs unchanged |
| FirewallClient.DifferFrom | pkg/firewall/client.go:145-149 | the comparison loop finds a difference exactly when the remaining suffixes differ |
| FirewallClient.SourceRangesChanged | pkg/firewall/client.go:140-150 | an update is needed exactly when the existing and desired source ranges differ |
| FirewallClient.UpdateRuleIfNotUpToDate | pkg/firewall/client.go:126-178 | reads the rule first; a read error is the whole run, with that error; issues the update exactly when the read succeeds with different ranges, and then returns the update's error or else its wait's; a read error is returned; equal ranges mean no further call; success exactly when the read succeeds and the ranges are equal or update and wait both succeed |
| FirewallClient.BastionFirewall | pkg/firewall/client.go:36-59 | the inserted rule is a TCP port-22 ingress rule with the fixed description; it belongs to the cluster network, has the bastion name and tag, and the lenient ranges |
| FirewallClient.CreateBastionFirewallRule | pkg/firewall/client.go:36-92 | inserts first; falls back to the compare-and-update exactly on "already exists" from the insert, and then is the insert followed by that update run; the fallback succeeds exactly when the read succeeds and the ranges already match or update and wait succeed; other insert errors are returned; "already exists" from the wait counts as success |
| FirewallClient.DeleteBastionFirewallRule | pkg/firewall/client.go:94-124 | one delete by name; never reports not-found; succeeds exactly when the delete (or its wait) succeeds or finds nothing; otherwise the delete's error, or after a successful delete the wait's |
| SecurityTypes.GetDefaultRule | pkg/security/client.go:307-319 | the default rule sits at `MaxInt32`, takes the given action, matches `*`, and carries the default description and versioned expression |
| SecurityTypes.ToGcpRules | pkg/security/client.go:288-298 | one compute rule per user rule, same action, description, ranges and priority, with the versioned expression |
| SecurityTypes.ToGCPSecurityPolicy | pkg/security/client.go:284-319 | the compute policy keeps name and description, puts the default rule (default action, `*`, `MaxInt32`) first and then the user rules in order |
| SecurityTypes.TranslationRoundTrip | pkg/security/client.go:284-305 | the compute policy minus its default rule reads back as exactly the user rules |
| PolicyDiff.Priorities | pkg/security/client.go:275-282 | the priority set contains every rule's priority and nothing else |
| PolicyDiff.Upserts | pkg/security/client.go:175-199 | one patch or create per desired rule, in order; the still-marked priorities are the marked ones minus the desired priorities |
| PolicyDiff.PlanUpdate | pkg/security/client.go:174-211 | one patch or create per desired rule; removes exactly the current priorities no desired rule uses, never `MaxInt32` |
| PolicyDiff.UpsertKind | pkg/security/client.go:184-198 | the i-th desired rule is patched exactly when its priority was marked and no earlier desired rule unmarked it, else created |
| PolicyDiff.PlanClassifies | pkg/security/client.go:174-199 | a desired rule is patched exactly when its priority is on the remote policy and not taken by an earlier desired rule |
| PolicyDiff.PlanKeys | pkg/security/client.go:174-211 | after the plan the remote holds exactly the desired priorities plus the default rule's if it was there |
| PolicyDiff.PlanValues | pkg/security/client.go:174-199 | with distinct desired priorities each one holds its desired rule after the plan |
| PolicyDiff.DefaultRuleSurvives | pkg/security/client.go:201-205 | the default rule is never removed, and is untouched unless a desired rule reuses its priority |
| PolicyDiff.ReapplyOnlyPatches | pkg/security/client.go:184-193 | re-applying rules whose priorities are exactly the remote ones patches every rule and removes nothing |
| PolicyDiff.UpsertsExecutable | pkg/security/client.go:182-198 | the first loop only creates missing priorities and only patches present ones |
| PolicyDiff.PlanExecutable | pkg/security/client.go:182-211 | with distinct desired priorities the remote accepts every call, and every removed priority is present when removed |
| PolicyDiff.WritesKeys | pkg/security/client.go:187-198 | patching or creating rules adds exactly their priorities to the remote policy |
| SecurityClient.RunOps | pkg/security/client.go:187-210 | rule calls go out in order and stop at the first failure, whose error is returned; success means every call was made and passed |
| SecurityClient.DeleteOrder | pkg/security/client.go:201-211 | each leftover priority is visited exactly once, and only those present in the fetched policy |
| SecurityClient.DeleteOps | pkg/security/client.go:207 | one remove-rule call per priority, in order |
| SecurityClient.DeletesRemove | pkg/security/client.go:201-211 | removing priorities one by one removes exactly that set, whatever the order |
| SecurityClient.UpdateSecurityPolicy | pkg/security/client.go:164-216 | reads the policy first; a read error stops there; otherwise the rule calls are the plan's patches/creates then removals, and it succeeds exactly when all of them do; a failing rule call is the last call made and its error is the outcome |
| SecurityClient.UpdateSucceeds | pkg/security/client.go:164-216 | when the read and every rule call succeed, the update succeeds |
| SecurityClient.UpdateRunsPlan | pkg/security/client.go:174-211 | the update's rule calls leave the remote policy exactly as the plan says |
| SecurityClient.ApplySecurityPolicy | pkg/security/client.go:92-106 | inserts the translated policy; a conflict switches to the update path, and the run is then the insert followed by the whole update run with its outcome; any other insert error is returned |
| SecurityClient.ApplyPolicy | pkg/security/client.go:56-90 | a missing or empty backend service fails before any call; a failed apply is returned without binding; after a successful apply exactly one bind to the backend service's resource name follows, and its answer is the outcome |
| SecurityClient.ApplyExistingPolicyRuleCalls | pkg/security/client.go:56-106 | when it succeeds, an apply over an existing policy is the insert, the read, the plan's rule calls in order, then the bind |
| SecurityClient.DeletePolicy | pkg/security/client.go:108-134 | refuses, without any call, while the cluster has any backend service; otherwise one delete by name, and not-found counts as deleted; any other delete error is returned, and after a successful delete the wait's answer is the outcome |
| SecurityClient.TranslatedKeys | pkg/security/client.go:284-305 | the compute policy's priorities are `MaxInt32` plus the user rules' |
| SecurityClient.TranslatedDistinct | pkg/security/client.go:284-305 | distinct user priorities that avoid `MaxInt32` stay distinct with the default rule added |
| SecurityClient.ApplyExistingPolicySucceeds | pkg/security/client.go:56-106 | with a backend service, an existing policy and every call succeeding, applying succeeds |
| SecurityClient.ExistingPolicyKeys | pkg/security/client.go:164-216 | updating an existing policy leaves exactly `MaxInt32` and the user priorities, whatever was there before |
| SecurityClient.ExistingPolicyValues | pkg/security/client.go:164-216 | after updating, `MaxInt32` holds the default rule and each user priority its translated rule |
| SecurityReconciler.UserRules | pkg/security/reconciler.go:84-100 | an error exactly when the annotation is rejected; no rule exactly when it is absent or empty; otherwise one allow rule at priority 0 with the annotation's CIDRs |
| SecurityReconciler.DefaultRules | pkg/security/reconciler.go:102-126 | the allow rule with the NAT IPs at priority 1, then the allow rule with the default allow-list at priority 2 |
| SecurityReconciler.DesiredPolicy | pkg/security/reconciler.go:51-74 | the policy is named for the cluster, denies by default, and has strictly increasing priorities below `MaxInt32`: the user rule, then the NAT rule, then the default allow-list rule |
| SecurityReconciler.IPRanges | pkg/security/reconciler.go:137-145 | no API annotation, or an empty one, gives no ranges; an error naming the value exactly when a piece is no CIDR; otherwise the whole comma-split, all valid |
| SecurityReconciler.Reconcile | pkg/security/reconciler.go:51-77 | a rejected annotation fails before any call; a NAT lookup failure stops after the lookup; otherwise the lookup then one apply of the desired policy (user rule, NAT IPs, default allow-list), whose answer is the outcome |
| SecurityReconciler.ReconcileDelete | pkg/security/reconciler.go:79-82 | exactly one call, deleting the policy by its deterministic name |
| SecurityReconciler.DeleteTargetsAppliedPolicy | pkg/security/reconciler.go:68-81 | the deletion path deletes the very policy name the normal path applies |
| SecurityReconciler.IncreasingIsDistinct | pkg/security/reconciler.go:90-126 | strictly increasing priorities stay distinct once translated |
| SecurityReconciler.DesiredPriorities | pkg/security/reconciler.go:64-66 | the desired policy uses priorities 1 and 2, and 0 exactly when there is a user rule |
| SecurityReconciler.ReconciledPolicyKeys | pkg/security/reconciler.go:51-77 | after reconciling an existing policy the remote holds exactly the default rule and the reconciler's own priorities, stale ones removed |
| SecurityReconciler.ReconciledPolicyValues | pkg/security/reconciler.go:51-77 | after reconciling an existing policy the default rule denies, priority 1 holds the NAT IPs and priority 2 the default allow-list |
| NatResolver.Contains | pkg/nat/resolver.go:84-91 | answers true exactly when the element is in the slice |
| NatResolver.Drain | pkg/nat/resolver.go:61-75 | draining the iterator succeeds exactly when no item is an error, and then yields every address in order |
| NatResolver.DrainFirstError | pkg/nat/resolver.go:62-70 | a failed drain reports the first error the iterator yields |
| NatResolver.UsedBy | pkg/nat/resolver.go:61-75 | keeps at most one IP per listed address |
| NatResolver.UsedBySound | pkg/nat/resolver.go:72-74 | every kept IP is the address of a listed address the router uses |
| NatResolver.UsedByComplete | pkg/nat/resolver.go:72-74 | every listed address the router uses is kept |
| NatResolver.UsedByEmpty | pkg/nat/resolver.go:77-79 | nothing is kept exactly when no listed address is used by the router |
| NatResolver.CollectUsed | pkg/nat/resolver.go:61-75 | the iterator loop returns the first error, or the used addresses in listing order |
| NatResolver.GetIPs | pkg/nat/resolver.go:32-82 | reads the cluster, then the router, then lists addresses; a missing router, a read error, a list error or no used address each stop with their own error; success is non-empty |
| Controller.RangesFromAnnotationAsWritten | controllers/gcpcluster.go:271-289 | accepts and returns what the corrected parser does, but its error always names the bastion annotation |
| Controller.RangesFromAnnotation | controllers/gcpcluster.go:271-289 | no annotation gives no ranges; otherwise the comma-split when every piece is a CIDR, else an error naming the annotation read |
| Controller.ParsersAgree | controllers/gcpcluster.go:278-288 | on a non-empty value the controller's parser and the shared parser accept the same values and return the same lists |
| Controller.EmptyAnnotationRejected | controllers/gcpcluster.go:278-288 | on an empty value the controller's parser fails while the shared parser returns no ranges |
| Controller.AsWrittenMisnamesAPIAnnotation | controllers/gcpcluster.go:283 | an empty API allow-list is reported as an invalid bastion allow-list by the code as written |
| Controller.BastionRule | controllers/gcpcluster.go:222-234 | the controller's rule is a bastion rule whose ranges are the annotation's alone |
| Controller.APIPolicy | controllers/gcpcluster.go:188-209 | the controller's policy is named for the cluster and denies by default; it has the user rule at priority 0 only when ranges are listed, then the NAT rule at priority 1; every priority is below 2 |
| Controller.ApplyBastionFirewallRule | controllers/gcpcluster.go:214-237 | no call exactly when the bastion annotation is invalid, with that error; otherwise one apply of the bastion rule with the annotation's ranges, whose answer is the outcome |
| Controller.ApplyAPISecurityPolicy | controllers/gcpcluster.go:181-212 | an invalid API annotation fails before any call; a NAT lookup error stops after the lookup; otherwise the NAT lookup then one apply of the controller's policy |
| Controller.ApplyResources | controllers/gcpcluster.go:149-157 | a failed bastion-rule step is the whole run, with its error; after a successful one the policy step follows, and its answer is the outcome |
| Controller.ReconcileNormal | controllers/gcpcluster.go:133-160 | nothing happens until network and backend service are set; then the finalizer is added first; a failed add stops there with its error, a successful one is followed by the rule and policy steps; success is finalizer, rule, NAT lookup, policy, each mutating call succeeding |
| Controller.ReconcileDelete | controllers/gcpcluster.go:162-179 | deletes the rule, then the policy, then releases the finalizer, stopping at the first failure; the finalizer is released exactly when both deletions succeeded |
| Controller.Reconcile | controllers/gcpcluster.go:87-131 | a vanished, unowned or paused cluster is left alone without error; read errors are returned; an active deleting cluster goes to the deletion path, an active live one to the normal path |
| Controller.FinalizerBeforeResources | controllers/gcpcluster.go:144-157 | every rule or policy apply comes after a successful finalizer add |
| Controller.DeleteTargetsAppliedResources | controllers/gcpcluster.go:253-261 | the deletion path deletes the very rule and policy names the normal path applied |
| Controller.FinalizerKeptWhileBackendAttached | controllers/gcpcluster.go:168-176 | with the security client that refuses to delete while a backend service is attached, the finalizer is never released |

## Left out

- `main.go`, the manager set-up (`SetupWithManager`), flags, logging and
  contexts are left out: they are wiring, not reconciliation logic.
- The Kubernetes client (`Get`, `GetOwner`, `AddFinalizer`, `RemoveFinalizer`)
  is not part of this model. Its answers are the `World` and responder
  parameters.
- `annotations.IsPaused` from the Cluster API library is not part of this
  model. It is modelled as "the owner is paused or the GCPCluster carries the
  paused annotation".
- `google.IsNilOrEmpty` is not part of this model's sources. It is modelled as
  "nil or the empty string", which is how every caller uses it.
- `net.ParseCIDR` is a parameter. The only fact assumed of it is that the
  empty string is no CIDR.
- Errors are reduced to their kind: not-found, conflict/already-exists, or
  other. `errors.WithStack`, `microerror.Mask` and the message texts are not
  modelled. Each error the operator creates itself is its own constructor.
- In the security client, each mutating call and its `op.Wait` are one
  outcome. The insert, its wait and the read-back of the self-link are one
  outcome too. The policy self-link passed to `SetSecurityPolicy` is not
  modelled, because the binding is identified by the backend service.
- Go map iteration order is left out: the model removes leftover priorities
  in the order they first appear in the fetched policy. The end-state
  theorems do not depend on that order (`SecurityClient.DeletesRemove`).
- `ctrl.Result` is always empty in the source and is not modelled. Only the
  error is.
- A nil router self-link or a nil address in `GetIPs` would make the source
  dereference nil. Nil-pointer panics are not modelled: those fields are plain
  strings here.
- The `if err != nil` after `addresses.List` in `GetIPs` checks an error
  that is already nil, so it is left out.
- The SSH port is the string `"22"` in the older firewall client and a number
  in the reconciler. Both are modelled as the number 22.
- NatResolver.UsedBy: its own contract states only the length bound. What it
  keeps is stated by `NatResolver.UsedBySound`, `NatResolver.UsedByComplete`
  and `NatResolver.UsedByEmpty`.
- PolicyDiff.PlanValues: requires distinct desired priorities, which the
  source never checks. Every policy the reconcilers build has them
  (`SecurityReconciler.IncreasingIsDistinct`).
- PolicyDiff.PlanExecutable: requires distinct desired priorities for the
  same reason. With a duplicate, the second rule would be created at a
  priority that already exists.
- SecurityClient.UpdateSecurityPolicy: states the calls and the outcome, not
  the remote policy after a run that failed part-way. The end state is stated
  for a run whose calls all succeed.
- Controller.ApplyResources: its contract composes the runs of
  `Controller.ApplyBastionFirewallRule` and `Controller.ApplyAPISecurityPolicy`;
  the rule and policy contents are stated by those two members.
- Controller.ApplyAPISecurityPolicy: an invalid API allow-list fails with an
  error naming the API annotation, as `Controller.RangesFromAnnotation` does.
  The code as written names the bastion annotation there; that error text is
  modelled only by `Controller.RangesFromAnnotationAsWritten` (see
  "## Findings"). `Controller.ReconcileNormal` and `Controller.Reconcile`
  inherit the corrected error.
- Go strings are byte sequences; they are modelled as `seq<char>`. Only the
  ASCII characters `,` and `/` are searched for, so the split points agree.

## Findings

| source | as written | input that shows it | evidently intended | confidence | as-written member | corrected member |
|---|---|---|---|---|---|---|
| controllers/gcpcluster.go:283 | the invalid-CIDR error always names `bastion.gcp.giantswarm.io/allowlist`, also when the API annotation was being parsed | a GCPCluster whose `api.gcp.giantswarm.io/allowlist` annotation is `""` (or any non-CIDR) | the error names the annotation that was read | not executed | Controller.RangesFromAnnotationAsWritten, Controller.AsWrittenMisnamesAPIAnnotation | Controller.RangesFromAnnotation |

=== FILE: capg.dfy ===
/**
 The parts of the Cluster API objects the operator reads: the GCP
 infrastructure cluster (`capg.GCPCluster`) and its owning core cluster
 (`capi.Cluster`). Both are owned by other controllers; the operator only
 reads them and asks for its finalizer to be added or removed.
 */
module Capg {
  import opened Wrappers

  /** `types.NamespacedName` */
  datatype NamespacedName = NamespacedName(namespace: string, name: string)

  /** `GCPCluster.Status.Network`: self-links filled in by the infrastructure provider. */
  datatype Network = Network(
    selfLink: Option<string>,
    apiServerBackendService: Option<string>,
    router: Option<string>)

  datatype GCPCluster = GCPCluster(
    namespace: string,
    name: string,
    project: string,
    region: string,
    annotations: map<string, string>,
    network: Network,
    /** `!DeletionTimestamp.IsZero()` */
    deleting: bool)

  /** The owning `capi.Cluster`, of which only the pause flag matters here. */
  datatype OwnerCluster = OwnerCluster(paused: bool)

  /** `capi.PausedAnnotation` */
  const PausedAnnotation := "cluster.x-k8s.io/paused"

  /** `annotations.IsPaused(cluster, gcpCluster)`: the owner is paused, or the
      infrastructure cluster carries the paused annotation (whatever its value). */
  predicate IsPaused(owner: OwnerCluster, infra: GCPCluster)
  {
    owner.paused || PausedAnnotation in infra.annotations
  }
}

=== FILE: cidr.dfy ===
/**
 The strict CIDR allow-list parser (`cidr.ParseFromCommaSeparated`): an
 annotation value is a comma-separated list of CIDRs, accepted whole or
 rejected whole.

 `net.ParseCIDR` is not modelled: the parsers take it as a parameter of type
 `CidrCheck`. The one fact the proofs assume of it is that it rejects the
 empty string, and the lemmas that need that fact say so in their `requires`.
 */
module Cidr {
  import opened Wrappers
  import opened Strings

  /** `net.ParseCIDR(s)` succeeds. */
  type CidrCheck = string -> bool

  /** The one fact assumed about `net.ParseCIDR`: the empty string is no CIDR. */
  predicate RejectsEmpty(valid: CidrCheck)
  {
    !valid("")
  }

  const Separator := ','

  /** Every token is a CIDR. */
  predicate AllValid(valid: CidrCheck, tokens: seq<string>)
  {
    forall i :: 0 <= i < |tokens| ==> valid(tokens[i])
  }

  /** The validation loop of the parser: scans the tokens from `from` on and
      answers whether none of them fails to parse. */
  function ValidFrom(valid: CidrCheck, tokens: seq<string>, from: nat): (ok: bool)
    requires from <= |tokens|
    ensures ok <==> forall i :: from <= i < |tokens| ==> valid(tokens[i])
    decreases |tokens| - from
  {
    if from == |tokens| then true
    else if !valid(tokens[from]) then false
    else ValidFrom(valid, tokens, from + 1)
  }

  /** `ParseFromCommaSeparated(value)`. The empty value is the empty list (Go
      returns `nil, nil`); otherwise the value is split on commas and either
      every piece is a CIDR, and the pieces are the result, or the whole value
      is rejected and no list is returned. */
  function ParseFromCommaSeparated(valid: CidrCheck, value: string): (r: Result<seq<string>>)
    ensures value == "" ==> r == Ok([])
    ensures r.Ok? ==> AllValid(valid, r.value)
    ensures r.Ok? && value != "" ==> r.value == Split(value, Separator)
    ensures r.Err? ==> r.error == InvalidCIDRs(value)
    ensures r.Err? <==> value != "" && !AllValid(valid, Split(value, Separator))
  {
    if value == "" then Ok([])
    else
      var ipRanges := Split(value, Separator);
      if ValidFrom(valid, ipRanges, 0) then Ok(ipRanges) else Err(InvalidCIDRs(value))
  }

  /** A successful parse loses nothing: joining the list with commas gives the value back. */
  lemma ParseRoundTrip(valid: CidrCheck, value: string)
    requires ParseFromCommaSeparated(valid, value).Ok?
    ensures Join(ParseFromCommaSeparated(valid, value).value, Separator) == value
  {
    if value != "" {
      JoinSplit(value, Separator);
    }
  }

  /** Conversely, a non-empty list of comma-free CIDRs is what its comma-join parses to. */
  lemma JoinParses(valid: CidrCheck, ranges: seq<string>)
    requires |ranges| >= 1 && AllValid(valid, ranges)
    requires forall i :: 0 <= i < |ranges| ==> Separator !in ranges[i]
    requires RejectsEmpty(valid)
    ensures ParseFromCommaSeparated(valid, Join(ranges, Separator)) == Ok(ranges)
  {
    SplitJoin(ranges, Separator);
    assert ranges[0] != "" by {
      assert valid(ranges[0]);
    }
    assert |Join(ranges, Separator)| >= |ranges[0]|;
  }

  /** A successful parse of a non-empty value has one CIDR more than the value has commas. */
  lemma ParseLength(valid: CidrCheck, value: string)
    requires value != "" && ParseFromCommaSeparated(valid, value).Ok?
    ensures |ParseFromCommaSeparated(valid, value).value| == Count(value, Separator) + 1
  {
    SplitLength(value, Separator);
  }

  /** A leading, trailing or doubled comma leaves an empty token, so the value is rejected. */
  lemma EmptyTokenRejected(valid: CidrCheck, a: string, b: string)
    requires RejectsEmpty(valid)
    requires a == "" || b == "" || (|b| > 0 && b[0] == Separator)
    ensures ParseFromCommaSeparated(valid, a + [Separator] + b).Err?
  {
    var value := a + [Separator] + b;
    SplitAt(a, Separator, b);
    var pieces := Split(value, Separator);
    if a == "" {
      assert pieces[0] == "";
    } else if b == "" {
      assert pieces[|pieces| - 1] == "";
    } else {
      assert b == [Separator] + b[1..];
      assert b == "" + [Separator] + b[1..];
      SplitAt("", Separator, b[1..]);
      assert pieces[|Split(a, Separator)|] == "";
    }
  }
}

=== FILE: controller.dfy ===
/**
 The GCPCluster controller (`controllers.GCPClusterReconciler`): for each
 GCPCluster event it reads the cluster and its owner, stands aside while
 either is paused or not ready, and otherwise either provisions the bastion
 SSH firewall rule and the API security policy behind a finalizer, or tears
 them down and releases the finalizer.

 This revision of the controller builds the rule and the policy itself: the
 bastion rule's ranges come from the annotation alone, the policy has the
 optional user rule and the NAT rule but no default allow-list rule, and the
 annotation parser has no shortcut for an empty value.

 The Kubernetes store, the two cloud clients and the NAT resolver are
 collaborators: `World` holds what the reads return and a responder answers
 every mutating call.
 */
module Controller {
  import opened Wrappers
  import opened Strings
  import opened Capg
  import opened Cidr
  import opened Google
  import opened Names
  import opened SecurityTypes
  import FW = FirewallReconciler
  import SecurityClient

  const FinalizerFirewall := "capg-firewall-rule-operator.finalizers.giantswarm.io"
  const AnnotationBastionAllowListSubnets := "bastion.gcp.giantswarm.io/allowlist"
  const AnnotationAPIAllowListSubnets := "api.gcp.giantswarm.io/allowlist"
  const UserRuleDescription := "allow user specified ips to connect to kubernetes api"
  const NATRuleDescription := "allow MC NAT IPs"
  const PolicyDescription := "allow IPs to connect to kubernetes api"
  const UserRulePriority: int32 := 0
  const NATRulePriority: int32 := 1

  /** `GCPClusterReconciler` and its configuration. */
  datatype GCPClusterReconciler = GCPClusterReconciler(managementCluster: NamespacedName)

  /** The calls to the collaborators that change something, plus the NAT IP lookup. */
  datatype Call =
    | AddFinalizer(finalizer: string)
    | RemoveFinalizer(finalizer: string)
    | ApplyRule(rule: FW.Rule)
    | DeleteRule(name: string)
    | ResolveIPs(cluster: NamespacedName)
    | ApplyPolicy(policy: Policy)
    | DeletePolicy(name: string)

  /** What the collaborators answer: the cluster read, the owner read (`None`
      when there is no owner yet), the management cluster's NAT IPs, and the
      outcome of every mutating call. */
  datatype World = World(
    cluster: Result<GCPCluster>,
    owner: Result<Option<OwnerCluster>>,
    natIPs: Result<seq<string>>,
    respond: Call -> Outcome)

  /** A mutating call (the NAT lookup is a read). */
  predicate Mutates(call: Call)
  {
    !call.ResolveIPs?
  }

  /** `getIPRangesFromAnnotation` as the source has it: its error message names
      the bastion annotation whichever annotation it was asked about. */
  function RangesFromAnnotationAsWritten(valid: CidrCheck, cluster: GCPCluster, key: string): (res: Result<seq<string>>)
    ensures res.Err? ==> res.error == InvalidAnnotation(AnnotationBastionAllowListSubnets)
    ensures res.Ok? == RangesFromAnnotation(valid, cluster, key).Ok?
    ensures res.Ok? ==> res.value == RangesFromAnnotation(valid, cluster, key).value
  {
    if key !in cluster.annotations then Ok([])
    else
      var ipRanges := Split(cluster.annotations[key], Separator);
      if ValidFrom(valid, ipRanges, 0) then Ok(ipRanges) else Err(InvalidAnnotation(AnnotationBastionAllowListSubnets))
  }

  /** `getIPRangesFromAnnotation` with its error naming the annotation it read:
      no annotation is no ranges; otherwise every comma-separated piece must be
      a CIDR. There is no shortcut for an empty value, so "" is one empty
      piece, which is no CIDR. */
  function RangesFromAnnotation(valid: CidrCheck, cluster: GCPCluster, key: string): (res: Result<seq<string>>)
    ensures key !in cluster.annotations ==> res == Ok([])
    ensures key in cluster.annotations ==>
              && (res.Ok? <==> AllValid(valid, Split(cluster.annotations[key], Separator)))
              && (res.Ok? ==> res.value == Split(cluster.annotations[key], Separator))
    ensures res.Err? ==> res.error == InvalidAnnotation(key)
  {
    if key !in cluster.annotations then Ok([])
    else
      var ipRanges := Split(cluster.annotations[key], Separator);
      if ValidFrom(valid, ipRanges, 0) then Ok(ipRanges) else Err(InvalidAnnotation(key))
  }

  /** The controller's parser and the shared strict parser agree on every
      non-empty value, in what they accept and what they return. */
  lemma ParsersAgree(valid: CidrCheck, cluster: GCPCluster, key: string)
    requires key in cluster.annotations && cluster.annotations[key] != ""
    ensures RangesFromAnnotation(valid, cluster, key).Ok? == ParseFromCommaSeparated(valid, cluster.annotations[key]).Ok?
    ensures RangesFromAnnotation(valid, cluster, key).Ok? ==>
              RangesFromAnnotation(valid, cluster, key).value == ParseFromCommaSeparated(valid, cluster.annotations[key]).value
  {
  }

  /** They differ on the empty value: the shared parser reads it as no ranges,
      the controller's rejects it. */
  lemma EmptyAnnotationRejected(valid: CidrCheck, cluster: GCPCluster, key: string)
    requires RejectsEmpty(valid)
    requires key in cluster.annotations && cluster.annotations[key] == ""
    ensures RangesFromAnnotation(valid, cluster, key) == Err(InvalidAnnotation(key))
    ensures ParseFromCommaSeparated(valid, cluster.annotations[key]) == Ok([])
  {
    assert Split("", Separator) == [""];
    assert !AllValid(valid, [""]) by {
      assert [""][0] == "";
    }
  }

  /** The error of the source's parser misnames the API annotation: an empty
      API allow-list is reported as a bad bastion allow-list. */
  lemma AsWrittenMisnamesAPIAnnotation(valid: CidrCheck, cluster: GCPCluster)
    requires RejectsEmpty(valid)
    requires cluster.annotations == map[AnnotationAPIAllowListSubnets := ""]
    ensures RangesFromAnnotationAsWritten(valid, cluster, AnnotationAPIAllowListSubnets)
         == Err(InvalidAnnotation(AnnotationBastionAllowListSubnets))
    ensures RangesFromAnnotation(valid, cluster, AnnotationAPIAllowListSubnets)
         == Err(InvalidAnnotation(AnnotationAPIAllowListSubnets))
    ensures AnnotationBastionAllowListSubnets != AnnotationAPIAllowListSubnets
  {
    EmptyAnnotationRejected(valid, cluster, AnnotationAPIAllowListSubnets);
    assert AnnotationBastionAllowListSubnets[0] != AnnotationAPIAllowListSubnets[0];
  }

  /** The rule `applyBastionFirewallRule` applies: the annotation's ranges only. */
  function BastionRule(cluster: GCPCluster, ranges: seq<string>): (rule: FW.Rule)
    ensures FW.IsBastionRule(rule, cluster.name)
    ensures rule.sourceRanges == ranges
  {
    FW.Rule(
      [FW.Allowed(FW.ProtocolTCP, [FW.PortSSH])],
      FW.SSHRuleDescription,
      FW.Ingress,
      BastionFirewallRuleName(cluster.name),
      [BastionTag(cluster.name)],
      ranges)
  }

  /** The policy `applyAPISecurityPolicy` applies: the user rule at priority 0
      when the annotation lists ranges, then the NAT rule at priority 1. */
  function APIPolicy(cluster: GCPCluster, ranges: seq<string>, natIPs: seq<string>): (policy: Policy)
    ensures policy.name == APISecurityPolicyName(cluster.name)
    ensures policy.description == PolicyDescription && policy.defaultAction == ActionDeny403
    ensures |policy.rules| == if ranges == [] then 1 else 2
    ensures policy.rules[|policy.rules| - 1] == PolicyRule(ActionAllow, NATRuleDescription, natIPs, NATRulePriority)
    ensures ranges != [] ==> policy.rules[0] == PolicyRule(ActionAllow, UserRuleDescription, ranges, UserRulePriority)
    ensures forall i :: 0 <= i < |policy.rules| ==> policy.rules[i].priority < 2
  {
    var user := if |ranges| != 0 then [PolicyRule(ActionAllow, UserRuleDescription, ranges, UserRulePriority)] else [];
    Policy(APISecurityPolicyName(cluster.name), PolicyDescription, ActionDeny403,
      user + [PolicyRule(ActionAllow, NATRuleDescription, natIPs, NATRulePriority)])
  }

  /** `applyBastionFirewallRule`: parse the bastion annotation, then apply the rule. */
  function ApplyBastionFirewallRule(valid: CidrCheck, cluster: GCPCluster, respond: Call -> Outcome): (run: Run<Call>)
    ensures |run.calls| <= 1
    ensures run.calls == [] <==> RangesFromAnnotation(valid, cluster, AnnotationBastionAllowListSubnets).Err?
    ensures run.calls == [] ==> run.outcome == Fail(InvalidAnnotation(AnnotationBastionAllowListSubnets))
    ensures run.calls != [] ==>
              && run.calls[0].ApplyRule?
              && FW.IsBastionRule(run.calls[0].rule, cluster.name)
              && run.outcome == respond(run.calls[0])
    ensures run.calls != [] ==>
              run.calls[0] == ApplyRule(BastionRule(cluster, RangesFromAnnotation(valid, cluster, AnnotationBastionAllowListSubnets).value))
  {
    match RangesFromAnnotation(valid, cluster, AnnotationBastionAllowListSubnets)
    case Err(e) => Run([], Fail(e))
    case Ok(ranges) =>
      var call := ApplyRule(BastionRule(cluster, ranges));
      Run([call], respond(call))
  }

  /** `applyAPISecurityPolicy`: parse the API annotation, look up the NAT IPs,
      then apply the policy; each failure stops before the next step. */
  function ApplyAPISecurityPolicy(r: GCPClusterReconciler, valid: CidrCheck, cluster: GCPCluster, natIPs: Result<seq<string>>, respond: Call -> Outcome): (run: Run<Call>)
    ensures RangesFromAnnotation(valid, cluster, AnnotationAPIAllowListSubnets).Err? ==>
              run == Run([], Fail(InvalidAnnotation(AnnotationAPIAllowListSubnets)))
    ensures RangesFromAnnotation(valid, cluster, AnnotationAPIAllowListSubnets).Ok? ==>
              && |run.calls| >= 1 && run.calls[0] == ResolveIPs(r.managementCluster)
              && (natIPs.Err? ==> run == Run([ResolveIPs(r.managementCluster)], Fail(natIPs.error)))
              && (natIPs.Ok? ==>
                    && |run.calls| == 2
                    && run.calls[1] == ApplyPolicy(APIPolicy(cluster, RangesFromAnnotation(valid, cluster, AnnotationAPIAllowListSubnets).value, natIPs.value))
                    && run.outcome == respond(run.calls[1]))
    ensures forall i :: 0 <= i < |run.calls| ==> run.calls[i].ResolveIPs? || run.calls[i].ApplyPolicy?
    ensures run.outcome == Pass ==>
              && |run.calls| == 2 && run.calls[0] == ResolveIPs(r.managementCluster)
              && run.calls[1].ApplyPolicy? && run.calls[1].policy.name == APISecurityPolicyName(cluster.name)
              && respond(run.calls[1]) == Pass
  {
    match RangesFromAnnotation(valid, cluster, AnnotationAPIAllowListSubnets)
    case Err(e) => Run([], Fail(e))
    case Ok(ranges) =>
      var resolve := ResolveIPs(r.managementCluster);
      match natIPs
      case Err(e) => Run([resolve], Fail(e))
      case Ok(ips) =>
        var apply := ApplyPolicy(APIPolicy(cluster, ranges, ips));
        Run([resolve, apply], respond(apply))
  }

  /** The cluster's network and API backend service are both known. */
  predicate Provisioned(cluster: GCPCluster)
  {
    !IsNilOrEmpty(cluster.network.selfLink) && !IsNilOrEmpty(cluster.network.apiServerBackendService)
  }

  /** The steps of `reconcileNormal` after the finalizer: apply the bastion
      rule, then the API policy, stopping at the first failure. */
  function ApplyResources(r: GCPClusterReconciler, valid: CidrCheck, cluster: GCPCluster, natIPs: Result<seq<string>>, respond: Call -> Outcome): (run: Run<Call>)
    ensures forall i :: 0 <= i < |run.calls| ==> run.calls[i].ApplyRule? || run.calls[i].ResolveIPs? || run.calls[i].ApplyPolicy?
    ensures |run.calls| > 1 ==> run.calls[0].ApplyRule? && respond(run.calls[0]) == Pass
    ensures run.outcome == Pass ==>
              && |run.calls| == 3
              && run.calls[0].ApplyRule? && FW.IsBastionRule(run.calls[0].rule, cluster.name)
              && run.calls[1] == ResolveIPs(r.managementCluster)
              && run.calls[2].ApplyPolicy? && run.calls[2].policy.name == APISecurityPolicyName(cluster.name)
              && respond(run.calls[0]) == Pass && respond(run.calls[2]) == Pass
    ensures ApplyBastionFirewallRule(valid, cluster, respond).outcome.Fail? ==> run == ApplyBastionFirewallRule(valid, cluster, respond)
    ensures ApplyBastionFirewallRule(valid, cluster, respond).outcome == Pass ==>
              run == After(ApplyBastionFirewallRule(valid, cluster, respond).calls, ApplyAPISecurityPolicy(r, valid, cluster, natIPs, respond))
  {
    var rule := ApplyBastionFirewallRule(valid, cluster, respond);
    if rule.outcome.Fail? then rule
    else After(rule.calls, ApplyAPISecurityPolicy(r, valid, cluster, natIPs, respond))
  }

  /** `reconcileNormal`: wait for the network and the backend service, add the
      finalizer, then apply the bastion rule, then the API policy. */
  function ReconcileNormal(r: GCPClusterReconciler, valid: CidrCheck, cluster: GCPCluster, natIPs: Result<seq<string>>, respond: Call -> Outcome): (run: Run<Call>)
    ensures !Provisioned(cluster) ==> run == Run([], Pass)
    ensures Provisioned(cluster) ==> |run.calls| >= 1 && run.calls[0] == AddFinalizer(FinalizerFirewall)
    ensures |run.calls| > 1 ==> respond(run.calls[0]) == Pass
    ensures forall i :: 0 < i < |run.calls| ==> run.calls[i].ApplyRule? || run.calls[i].ResolveIPs? || run.calls[i].ApplyPolicy?
    ensures Provisioned(cluster) && run.outcome == Pass ==>
              && |run.calls| == 4
              && run.calls[1].ApplyRule? && FW.IsBastionRule(run.calls[1].rule, cluster.name)
              && run.calls[2] == ResolveIPs(r.managementCluster)
              && run.calls[3].ApplyPolicy? && run.calls[3].policy.name == APISecurityPolicyName(cluster.name)
              && forall i :: 0 <= i < 4 && Mutates(run.calls[i]) ==> respond(run.calls[i]) == Pass
    ensures Provisioned(cluster) && respond(AddFinalizer(FinalizerFirewall)).Fail? ==>
              run == Run([AddFinalizer(FinalizerFirewall)], respond(AddFinalizer(FinalizerFirewall)))
    ensures Provisioned(cluster) && respond(AddFinalizer(FinalizerFirewall)) == Pass ==>
              run == After([AddFinalizer(FinalizerFirewall)], ApplyResources(r, valid, cluster, natIPs, respond))
  {
    if !Provisioned(cluster) then Run([], Pass)
    else
      var add := AddFinalizer(FinalizerFirewall);
      if respond(add).Fail? then Run([add], respond(add))
      else After([add], ApplyResources(r, valid, cluster, natIPs, respond))
  }

  /** `reconcileDelete`: delete the bastion rule, then the API policy, and only
      when both succeeded release the finalizer. */
  function ReconcileDelete(cluster: GCPCluster, respond: Call -> Outcome): (run: Run<Call>)
    ensures 1 <= |run.calls| <= 3
    ensures run.calls == [DeleteRule(BastionFirewallRuleName(cluster.name)),
                          DeletePolicy(APISecurityPolicyName(cluster.name)),
                          RemoveFinalizer(FinalizerFirewall)][..|run.calls|]
    ensures RemoveFinalizer(FinalizerFirewall) in run.calls <==>
              respond(run.calls[0]) == Pass && respond(DeletePolicy(APISecurityPolicyName(cluster.name))) == Pass
    ensures run.outcome == Pass <==> |run.calls| == 3 && forall i :: 0 <= i < 3 ==> respond(run.calls[i]) == Pass
    ensures run.outcome.Fail? ==> run.outcome == respond(run.calls[|run.calls| - 1])
    ensures |run.calls| >= 2 ==> respond(run.calls[0]) == Pass
  {
    var deleteRule := DeleteRule(BastionFirewallRuleName(cluster.name));
    var deletePolicy := DeletePolicy(APISecurityPolicyName(cluster.name));
    var remove := RemoveFinalizer(FinalizerFirewall);
    if respond(deleteRule).Fail? then Run([deleteRule], respond(deleteRule))
    else if respond(deletePolicy).Fail? then Run([deleteRule, deletePolicy], respond(deletePolicy))
    else Run([deleteRule, deletePolicy, remove], respond(remove))
  }

  /** The owner exists, and neither it nor the infrastructure cluster is paused. */
  predicate Active(world: World)
  {
    world.cluster.Ok? && world.owner.Ok? && world.owner.value.Some? && !IsPaused(world.owner.value.value, world.cluster.value)
  }

  /** `GCPClusterReconciler.Reconcile`: a cluster that is gone, has no owner yet
      or is paused is left alone without error; read errors are returned;
      otherwise the deletion or the normal path runs. */
  function Reconcile(r: GCPClusterReconciler, valid: CidrCheck, world: World): (run: Run<Call>)
    ensures world.cluster == Err(Remote(NotFound)) ==> run == Run([], Pass)
    ensures world.cluster.Err? && world.cluster.error != Remote(NotFound) ==> run == Run([], Fail(world.cluster.error))
    ensures world.cluster.Ok? && world.owner.Err? ==> run == Run([], Fail(world.owner.error))
    ensures world.cluster.Ok? && world.owner == Ok(None) ==> run == Run([], Pass)
    ensures world.cluster.Ok? && world.owner.Ok? && world.owner.value.Some? && IsPaused(world.owner.value.value, world.cluster.value) ==>
              run == Run([], Pass)
    ensures run.calls != [] ==> Active(world)
    ensures Active(world) && world.cluster.value.deleting ==>
              forall i :: 0 <= i < |run.calls| ==> run.calls[i].DeleteRule? || run.calls[i].DeletePolicy? || run.calls[i].RemoveFinalizer?
    ensures Active(world) && !world.cluster.value.deleting ==>
              forall i :: 0 <= i < |run.calls| ==> !run.calls[i].RemoveFinalizer? && !run.calls[i].DeleteRule? && !run.calls[i].DeletePolicy?
    ensures Active(world) && world.cluster.value.deleting ==> run == ReconcileDelete(world.cluster.value, world.respond)
    ensures Active(world) && !world.cluster.value.deleting ==>
              run == ReconcileNormal(r, valid, world.cluster.value, world.natIPs, world.respond)
  {
    match world.cluster
    case Err(e) => if e == Remote(NotFound) then Run([], Pass) else Run([], Fail(e))
    case Ok(cluster) =>
      match world.owner
      case Err(e) => Run([], Fail(e))
      case Ok(None) => Run([], Pass)
      case Ok(Some(owner)) =>
        if IsPaused(owner, cluster) then Run([], Pass)
        else if cluster.deleting then ReconcileDelete(cluster, world.respond)
        else ReconcileNormal(r, valid, cluster, world.natIPs, world.respond)
  }

  /** The finalizer is added before any cloud resource is created: every apply
      call comes after a successful `AddFinalizer`. */
  lemma FinalizerBeforeResources(r: GCPClusterReconciler, valid: CidrCheck, world: World, i: nat)
    requires i < |Reconcile(r, valid, world).calls|
    requires Reconcile(r, valid, world).calls[i].ApplyRule? || Reconcile(r, valid, world).calls[i].ApplyPolicy?
    ensures i > 0
    ensures Reconcile(r, valid, world).calls[0] == AddFinalizer(FinalizerFirewall)
    ensures world.respond(AddFinalizer(FinalizerFirewall)) == Pass
  {
    var cluster := world.cluster.value;
    var run := ReconcileNormal(r, valid, cluster, world.natIPs, world.respond);
    assert run == Reconcile(r, valid, world);
  }

  /** The deletion path and the normal path name the same rule and policy. */
  lemma DeleteTargetsAppliedResources(r: GCPClusterReconciler, valid: CidrCheck, cluster: GCPCluster, natIPs: Result<seq<string>>, respond: Call -> Outcome)
    requires Provisioned(cluster) && ReconcileNormal(r, valid, cluster, natIPs, respond).outcome == Pass
    ensures ReconcileNormal(r, valid, cluster, natIPs, respond).calls[1].rule.name == ReconcileDelete(cluster, respond).calls[0].name
    ensures |ReconcileDelete(cluster, respond).calls| >= 2 ==>
              ReconcileNormal(r, valid, cluster, natIPs, respond).calls[3].policy.name == ReconcileDelete(cluster, respond).calls[1].name
  {
  }

  /** Composed with the security policy client: while the cluster still has an
      API backend service, the client refuses to delete the policy, so the
      controller never releases the finalizer. */
  lemma FinalizerKeptWhileBackendAttached(r: GCPClusterReconciler, valid: CidrCheck, world: World, api: SecurityClient.PoliciesApi)
    requires world.cluster.Ok? && world.cluster.value.network.apiServerBackendService.Some?
    requires forall name :: world.respond(DeletePolicy(name)) == SecurityClient.DeletePolicy(world.cluster.value, name, api).outcome
    ensures RemoveFinalizer(FinalizerFirewall) !in Reconcile(r, valid, world).calls
  {
    var cluster := world.cluster.value;
    var name := APISecurityPolicyName(cluster.name);
    assert world.respond(DeletePolicy(name)) == Fail(BackendServiceNotDeleted);
    if Active(world) && cluster.deleting {
      assert Reconcile(r, valid, world) == ReconcileDelete(cluster, world.respond);
    }
  }
}

=== FILE: firewall_client.dfy ===
/**
 The earlier firewall client (`firewall.Client`), which builds the bastion
 rule itself from the `.../whitelist` annotation and talks to the compute
 firewalls API: insert, fall back to a compare-and-update when the rule
 already exists, and delete with not-found counted as done.

 The compute API is a collaborator: `FirewallsApi` holds what each of its
 calls returns, and every function returns the calls it made.
 */
module FirewallClient {
  import opened Wrappers
  import opened Strings
  import opened Capg
  import opened Cidr
  import opened Names
  import opened FirewallReconciler

  const AnnotationBastionWhitelistSubnets := "bastion.gcp.giantswarm.io/whitelist"
  const InsertedRuleDescription := "allow port 22 for SSH to"

  /** `computepb.Firewall`: the rule as sent, with the network it belongs to. */
  datatype ComputeFirewall = ComputeFirewall(rule: Rule, network: Option<string>)

  /** The calls to the compute firewalls API (each mutating call includes its `op.Wait`). */
  datatype ComputeCall = Insert(firewall: ComputeFirewall) | Get(name: string) | Update(firewall: ComputeFirewall) | Delete(name: string)

  /** What the compute firewalls API answers: each mutating call, then the wait
      on its operation; `get` is the existing rule's source ranges. */
  datatype FirewallsApi = FirewallsApi(
    insert: Outcome,
    insertWait: Outcome,
    get: Result<seq<string>>,
    update: Outcome,
    updateWait: Outcome,
    delete: Outcome,
    deleteWait: Outcome)

  /** `bastionFirewallPolicyRuleName`: the same name as the reconciler's. */
  function BastionFirewallPolicyRuleName(clusterName: string): (name: string)
    ensures name == BastionFirewallRuleName(clusterName)
  {
    "allow-" + clusterName + "-bastion-ssh"
  }

  /** The lenient filter: keeps the tokens that parse as CIDRs, in their order,
      silently dropping the others. */
  function FilterValid(valid: CidrCheck, tokens: seq<string>): (kept: seq<string>)
    ensures |kept| <= |tokens|
    ensures AllValid(valid, kept)
    ensures IsSubsequence(kept, tokens)
    ensures forall t :: t in kept <==> t in tokens && valid(t)
    ensures |kept| == |tokens| <==> AllValid(valid, tokens)
  {
    if |tokens| == 0 then []
    else
      var rest := FilterValid(valid, tokens[1..]);
      assert tokens == [tokens[0]] + tokens[1..];
      if valid(tokens[0]) then [tokens[0]] + rest else rest
  }

  /** The filter keeps every copy of a CIDR token and no copy of another token:
      nothing is deduplicated. */
  lemma {:induction false} FilterValidCounts(valid: CidrCheck, tokens: seq<string>, t: string)
    ensures multiset(FilterValid(valid, tokens))[t] == if valid(t) then multiset(tokens)[t] else 0
    decreases |tokens|
  {
    if |tokens| > 0 {
      FilterValidCounts(valid, tokens[1..], t);
      assert tokens == [tokens[0]] + tokens[1..];
      assert multiset(tokens) == multiset{tokens[0]} + multiset(tokens[1..]);
      var rest := FilterValid(valid, tokens[1..]);
      if valid(tokens[0]) {
        assert multiset([tokens[0]] + rest) == multiset{tokens[0]} + multiset(rest);
      }
    }
  }

  /** A subsequence is never longer than the sequence it is taken from. */
  lemma {:induction false} SubsequenceNotLonger<T>(a: seq<T>, b: seq<T>)
    requires IsSubsequence(a, b)
    ensures |a| <= |b|
    decreases |b|
  {
    if |a| > 0 {
      if a[0] == b[0] {
        SubsequenceNotLonger(a[1..], b[1..]);
      } else {
        SubsequenceNotLonger(a, b[1..]);
      }
    }
  }

  /** `GetIPRangesFromAnnotation`: never an error. Without the annotation there
      are no ranges; with it, the CIDR tokens of its comma-split. */
  function GetIPRangesFromAnnotation(valid: CidrCheck, cluster: GCPCluster): (ranges: seq<string>)
    ensures AnnotationBastionWhitelistSubnets !in cluster.annotations ==> ranges == []
    ensures AnnotationBastionWhitelistSubnets in cluster.annotations ==>
              var tokens := Split(cluster.annotations[AnnotationBastionWhitelistSubnets], Separator);
              && ranges == FilterValid(valid, tokens)
              && |ranges| <= |tokens|
              && IsSubsequence(ranges, tokens)
              && forall t :: t in ranges <==> t in tokens && valid(t)
  {
    if AnnotationBastionWhitelistSubnets in cluster.annotations then
      var parts := Split(cluster.annotations[AnnotationBastionWhitelistSubnets], Separator);
      var kept := FilterValid(valid, parts);
      SubsequenceNotLonger(kept, parts);
      kept
    else []
  }

  /** On a value the strict parser accepts, the lenient filter returns the same list. */
  lemma {:induction false} LenientAgreesWithStrict(valid: CidrCheck, value: string)
    requires RejectsEmpty(valid)
    requires ParseFromCommaSeparated(valid, value).Ok?
    ensures FilterValid(valid, Split(value, Separator)) == ParseFromCommaSeparated(valid, value).value
  {
    if value == "" {
      assert Split(value, Separator) == [""];
      assert FilterValid(valid, [""]) == FilterValid(valid, [""][1..]);
    } else {
      FilterKeepsAllValid(valid, Split(value, Separator));
    }
  }

  /** The filter is the identity on a list of CIDRs. */
  lemma {:induction false} FilterKeepsAllValid(valid: CidrCheck, tokens: seq<string>)
    requires AllValid(valid, tokens)
    ensures FilterValid(valid, tokens) == tokens
    decreases |tokens|
  {
    if |tokens| > 0 {
      FilterKeepsAllValid(valid, tokens[1..]);
    }
  }

  /** The comparison loop of `UpdateRuleIfNotUpToDate`, from index `i` on: some
      remaining position holds different ranges. */
  function DifferFrom(remote: seq<string>, desired: seq<string>, i: nat): (differ: bool)
    requires |remote| == |desired| && i <= |remote|
    ensures differ <==> remote[i..] != desired[i..]
    decreases |remote| - i
  {
    if i == |remote| then false
    else
      var later := DifferFrom(remote, desired, i + 1);
      assert remote[i..] == [remote[i]] + remote[i + 1..];
      assert desired[i..] == [desired[i]] + desired[i + 1..];
      desired[i] != remote[i] || later
  }

  /** The change check of `UpdateRuleIfNotUpToDate`: lengths differ, or some index does. */
  function SourceRangesChanged(remote: seq<string>, desired: seq<string>): (changed: bool)
    ensures changed <==> remote != desired
  {
    if |remote| != |desired| then true
    else
      var differ := DifferFrom(remote, desired, 0);
      assert remote[0..] == remote && desired[0..] == desired;
      differ
  }

  /** `UpdateRuleIfNotUpToDate`: read the existing rule; update it only when its
      source ranges differ from the desired ones, whatever else differs. */
  function UpdateRuleIfNotUpToDate(cluster: GCPCluster, fw: ComputeFirewall, api: FirewallsApi): (run: Run<ComputeCall>)
    ensures |run.calls| >= 1 && run.calls[0] == Get(BastionFirewallPolicyRuleName(cluster.name))
    ensures Update(fw) in run.calls <==> api.get.Ok? && api.get.value != fw.rule.sourceRanges
    ensures api.get.Err? ==> run == Run([Get(BastionFirewallPolicyRuleName(cluster.name))], Fail(api.get.error))
    ensures api.get.Ok? && api.get.value == fw.rule.sourceRanges ==> run == Run([Get(BastionFirewallPolicyRuleName(cluster.name))], Pass)
    ensures api.get.Ok? && api.get.value != fw.rule.sourceRanges ==>
              && run.calls == [Get(BastionFirewallPolicyRuleName(cluster.name)), Update(fw)]
              && run.outcome == (if api.update.Fail? then api.update else api.updateWait)
    ensures run.outcome == Pass <==>
              api.get.Ok? && (api.get.value == fw.rule.sourceRanges || (api.update == Pass && api.updateWait == Pass))
  {
    var get := Get(BastionFirewallPolicyRuleName(cluster.name));
    match api.get
    case Err(e) => Run([get], Fail(e))
    case Ok(current) =>
      if !SourceRangesChanged(current, fw.rule.sourceRanges) then Run([get], Pass)
      else if api.update.Fail? then Run([get, Update(fw)], api.update)
      else Run([get, Update(fw)], api.updateWait)
  }

  /** The rule `CreateBastionFirewallRule` inserts. */
  function BastionFirewall(valid: CidrCheck, cluster: GCPCluster): (fw: ComputeFirewall)
    ensures fw.network == cluster.network.selfLink
    ensures fw.rule.name == BastionFirewallRuleName(cluster.name) && fw.rule.targetTags == [BastionTag(cluster.name)]
    ensures fw.rule.sourceRanges == GetIPRangesFromAnnotation(valid, cluster)
    ensures fw.rule.allowed == [Allowed(ProtocolTCP, [PortSSH])] && fw.rule.direction == Ingress
    ensures fw.rule.description == InsertedRuleDescription
  {
    ComputeFirewall(
      Rule(
        [Allowed(ProtocolTCP, [PortSSH])],
        InsertedRuleDescription,
        Ingress,
        BastionFirewallPolicyRuleName(cluster.name),
        [BastionTag(cluster.name)],
        GetIPRangesFromAnnotation(valid, cluster)),
      cluster.network.selfLink)
  }

  /** `CreateBastionFirewallRule`: insert the rule; "already exists" from the
      insert itself switches to the update path, "already exists" from waiting
      on the insert counts as done, and every other error is returned. */
  function CreateBastionFirewallRule(valid: CidrCheck, cluster: GCPCluster, api: FirewallsApi): (run: Run<ComputeCall>)
    ensures |run.calls| >= 1 && run.calls[0] == Insert(BastionFirewall(valid, cluster))
    ensures (|run.calls| > 1) <==> api.insert == Fail(Remote(Conflict))
    ensures api.insert == Fail(Remote(Conflict)) ==>
              && run.calls[1] == Get(BastionFirewallRuleName(cluster.name))
              && run == After([Insert(BastionFirewall(valid, cluster))], UpdateRuleIfNotUpToDate(cluster, BastionFirewall(valid, cluster), api))
    ensures api.insert == Fail(Remote(Conflict)) ==>
              (run.outcome == Pass <==>
                 api.get.Ok? && (api.get.value == GetIPRangesFromAnnotation(valid, cluster) || (api.update == Pass && api.updateWait == Pass)))
    ensures api.insert.Fail? && api.insert != Fail(Remote(Conflict)) ==> run.outcome == api.insert
    ensures api.insert == Pass ==>
              run.outcome == (if api.insertWait.Fail? && api.insertWait != Fail(Remote(Conflict)) then api.insertWait else Pass)
  {
    var fw := BastionFirewall(valid, cluster);
    match api.insert
    case Fail(e) =>
      if e == Remote(Conflict) then After([Insert(fw)], UpdateRuleIfNotUpToDate(cluster, fw, api))
      else Run([Insert(fw)], Fail(e))
    case Pass =>
      match api.insertWait
      case Fail(e) =>
        if e == Remote(Conflict) then Run([Insert(fw)], Pass) else Run([Insert(fw)], Fail(e))
      case Pass => Run([Insert(fw)], Pass)
  }

  /** `DeleteBastionFirewallRule`: delete by name; not-found from the call or
      from waiting on it means the rule is already gone. */
  function DeleteBastionFirewallRule(cluster: GCPCluster, api: FirewallsApi): (run: Run<ComputeCall>)
    ensures run.calls == [Delete(BastionFirewallRuleName(cluster.name))]
    ensures run.outcome != Fail(Remote(NotFound))
    ensures run.outcome.Fail? ==> run.outcome == api.delete || run.outcome == api.deleteWait
    ensures api.delete.Fail? && api.delete != Fail(Remote(NotFound)) ==> run.outcome == api.delete
    ensures api.delete == Pass && api.deleteWait != Fail(Remote(NotFound)) ==> run.outcome == api.deleteWait
    ensures run.outcome == Pass <==>
              api.delete == Fail(Remote(NotFound))
              || (api.delete == Pass && (api.deleteWait == Pass || api.deleteWait == Fail(Remote(NotFound))))
  {
    var call := Delete(BastionFirewallPolicyRuleName(cluster.name));
    if api.delete == Fail(Remote(NotFound)) then Run([call], Pass)
    else if api.delete.Fail? then Run([call], api.delete)
    else if api.deleteWait == Fail(Remote(NotFound)) then Run([call], Pass)
    else Run([call], api.deleteWait)
  }
}

=== FILE: firewall_reconciler.dfy ===
/**
 The bastion firewall rule reconciler (`firewall.RuleReconciler`): derives the
 desired SSH ingress rule for a cluster from its bastion allow-list annotation
 and the operator's default allow-list, and hands it to the firewall client;
 on deletion it asks the client to delete the rule by name.
 */
module FirewallReconciler {
  import opened Wrappers
  import opened Strings
  import opened Capg
  import opened Cidr
  import opened Names

  const AnnotationBastionAllowListSubnets := "bastion.gcp.giantswarm.io/allowlist"
  const ProtocolTCP := "tcp"
  const PortSSH: nat := 22
  const SSHRuleDescription := "allow port 22 for SSH"

  datatype Direction = Ingress

  /** One protocol and the ports it allows. */
  datatype Allowed = Allowed(ipProtocol: string, ports: seq<nat>)

  /** `firewall.Rule`: the desired firewall rule, replaced whole on every apply. */
  datatype Rule = Rule(
    allowed: seq<Allowed>,
    description: string,
    direction: Direction,
    name: string,
    targetTags: seq<string>,
    sourceRanges: seq<string>)

  /** The calls of the `FirewallsClient` collaborator. */
  datatype Call = ApplyRule(rule: Rule) | DeleteRule(name: string)

  /** What the firewall client answers to each call. */
  type Responder = Call -> Outcome

  /** `RuleReconciler` and its configuration. */
  datatype RuleReconciler = RuleReconciler(defaultBastionHostAllowList: seq<string>)

  /** The shape every bastion rule has: SSH over TCP only, ingress, to the bastion tag. */
  predicate IsBastionRule(rule: Rule, clusterName: string)
  {
    && rule.allowed == [Allowed(ProtocolTCP, [PortSSH])]
    && rule.description == SSHRuleDescription
    && rule.direction == Ingress
    && rule.name == BastionFirewallRuleName(clusterName)
    && rule.targetTags == [BastionTag(clusterName)]
  }

  /** The bastion annotation is present, non-empty, and not a list of CIDRs. */
  predicate AnnotationRejected(valid: CidrCheck, cluster: GCPCluster)
  {
    && AnnotationBastionAllowListSubnets in cluster.annotations
    && cluster.annotations[AnnotationBastionAllowListSubnets] != ""
    && !AllValid(valid, Split(cluster.annotations[AnnotationBastionAllowListSubnets], Separator))
  }

  /** `getIPRangesFromAnnotation`: no annotation is no ranges; a present one goes
      through the strict parser (so a present but empty one is no ranges too). */
  function IPRangesFromAnnotation(valid: CidrCheck, cluster: GCPCluster): (res: Result<seq<string>>)
    ensures AnnotationBastionAllowListSubnets !in cluster.annotations ==> res == Ok([])
    ensures AnnotationBastionAllowListSubnets in cluster.annotations && cluster.annotations[AnnotationBastionAllowListSubnets] == "" ==> res == Ok([])
    ensures res.Err? <==> AnnotationRejected(valid, cluster)
    ensures res.Err? ==> res.error == InvalidCIDRs(cluster.annotations[AnnotationBastionAllowListSubnets])
    ensures res.Ok? && AnnotationBastionAllowListSubnets in cluster.annotations && cluster.annotations[AnnotationBastionAllowListSubnets] != "" ==>
              res.value == Split(cluster.annotations[AnnotationBastionAllowListSubnets], Separator) && AllValid(valid, res.value)
  {
    if AnnotationBastionAllowListSubnets !in cluster.annotations then Ok([])
    else ParseFromCommaSeparated(valid, cluster.annotations[AnnotationBastionAllowListSubnets])
  }

  /** The rule `Reconcile` builds, or the parse error that stops it. The ranges
      are the annotation's CIDRs, in order, followed by the defaults, in order;
      nothing is deduplicated. */
  function DesiredRule(r: RuleReconciler, valid: CidrCheck, cluster: GCPCluster): (res: Result<Rule>)
    ensures res.Ok? ==> IsBastionRule(res.value, cluster.name)
    ensures AnnotationBastionAllowListSubnets !in cluster.annotations ==>
              res.Ok? && res.value.sourceRanges == r.defaultBastionHostAllowList
    ensures AnnotationBastionAllowListSubnets in cluster.annotations ==>
              var value := cluster.annotations[AnnotationBastionAllowListSubnets];
              && (value == "" ==> res.Ok? && res.value.sourceRanges == r.defaultBastionHostAllowList)
              && (value != "" && AllValid(valid, Split(value, Separator)) ==>
                    res.Ok? && res.value.sourceRanges == Split(value, Separator) + r.defaultBastionHostAllowList)
              && (value != "" && !AllValid(valid, Split(value, Separator)) ==>
                    res == Err(InvalidCIDRs(value)))
  {
    var sourceIPRanges :- IPRangesFromAnnotation(valid, cluster);
    Ok(Rule(
      [Allowed(ProtocolTCP, [PortSSH])],
      SSHRuleDescription,
      Ingress,
      BastionFirewallRuleName(cluster.name),
      [BastionTag(cluster.name)],
      sourceIPRanges + r.defaultBastionHostAllowList))
  }

  /** `RuleReconciler.Reconcile`: at most one call, `ApplyRule` with the desired
      rule, and none at all when the annotation does not parse. */
  function Reconcile(r: RuleReconciler, valid: CidrCheck, cluster: GCPCluster, respond: Responder): (run: Run<Call>)
    ensures |run.calls| <= 1
    ensures forall i :: 0 <= i < |run.calls| ==>
              run.calls[i].ApplyRule? && IsBastionRule(run.calls[i].rule, cluster.name)
    ensures run.calls == [] <==> AnnotationRejected(valid, cluster)
    ensures run.calls == [] ==> DesiredRule(r, valid, cluster).Err? && run.outcome == Fail(DesiredRule(r, valid, cluster).error)
    ensures run.calls != [] ==> run.outcome == respond(run.calls[0])
    ensures run.calls != [] ==> DesiredRule(r, valid, cluster).Ok? && run.calls[0] == ApplyRule(DesiredRule(r, valid, cluster).value)
  {
    match DesiredRule(r, valid, cluster)
    case Err(e) => Run([], Fail(e))
    case Ok(rule) => Run([ApplyRule(rule)], respond(ApplyRule(rule)))
  }

  /** `RuleReconciler.ReconcileDelete`: exactly one call, deleting the rule by its name. */
  function ReconcileDelete(cluster: GCPCluster, respond: Responder): (run: Run<Call>)
    ensures run.calls == [DeleteRule(BastionFirewallRuleName(cluster.name))]
    ensures run.outcome == respond(run.calls[0])
  {
    var call := DeleteRule(BastionFirewallRuleName(cluster.name));
    Run([call], respond(call))
  }

  /** The deletion path removes the very rule the normal path applies. */
  lemma DeleteTargetsAppliedRule(r: RuleReconciler, valid: CidrCheck, cluster: GCPCluster, respond: Responder)
    requires Reconcile(r, valid, cluster, respond).calls != []
    ensures Reconcile(r, valid, cluster, respond).calls[0].rule.name
         == ReconcileDelete(cluster, respond).calls[0].name
  {
  }

  /** An annotation that lists a default range again keeps both copies. */
  lemma DuplicatesKept(r: RuleReconciler, valid: CidrCheck, cluster: GCPCluster, range: string)
    requires AnnotationBastionAllowListSubnets in cluster.annotations
    requires cluster.annotations[AnnotationBastionAllowListSubnets] == range
    requires range != "" && valid(range) && Separator !in range
    requires r.defaultBastionHostAllowList == [range]
    ensures DesiredRule(r, valid, cluster) == Ok(Rule(
              [Allowed(ProtocolTCP, [PortSSH])], SSHRuleDescription, Ingress,
              BastionFirewallRuleName(cluster.name), [BastionTag(cluster.name)], [range, range]))
  {
    SplitNoSeparator(range, Separator);
    assert AllValid(valid, [range]);
    assert IPRangesFromAnnotation(valid, cluster) == Ok([range]);
    assert [range] + [range] == [range, range];
  }
}

=== FILE: google.dfy ===
/**
 Helpers shared by the compute-API clients: recognising an HTTP status in an
 error, checking an optional self-link, and taking the resource name out of a
 self-link.
 */
module Google {
  import opened Wrappers
  import opened Strings

  /** `google.HasHttpCode(err, code)`: the error is a compute-API error with that status. */
  predicate HasHttpCode(o: Outcome, kind: ErrorKind)
  {
    o == Fail(Remote(kind))
  }

  /** `google.IsNilOrEmpty(p)`: the pointer is nil or points to "". */
  predicate IsNilOrEmpty(p: Option<string>)
  {
    p == None || p == Some("")
  }

  /** `GetResourceName(selfLink)`: everything after the last `/` of the link,
      the whole link when it has no `/`, and "" for a nil link. */
  function GetResourceName(selfLink: Option<string>): (name: string)
    ensures selfLink == None ==> name == ""
    ensures selfLink.Some? ==> IsSuffix(name, selfLink.value)
    ensures '/' !in name
    ensures selfLink.Some? && '/' !in selfLink.value ==> name == selfLink.value
    ensures selfLink.Some? && |selfLink.value| > 0 && selfLink.value[|selfLink.value| - 1] == '/' ==> name == ""
    ensures selfLink.Some? && name != selfLink.value ==>
              selfLink.value[|selfLink.value| - |name| - 1] == '/'
  {
    match selfLink
    case None => ""
    case Some(s) => s[LastIndex(s, '/') + 1..]
  }

  /** `suffix` is an ending of `s`. */
  predicate IsSuffix(suffix: string, s: string)
  {
    |suffix| <= |s| && s[|s| - |suffix|..] == suffix
  }
}

=== FILE: names.dfy ===
/**
 The deterministic names of the cloud resources the operator manages for a
 cluster: the bastion firewall rule, its target tag, and the API security
 policy. They are pure functions of the cluster name, which is what lets a
 later reconciliation (or the deletion path) find the resources again.
 */
module Names {

  /** `getBastionFirewallRuleName`: `allow-<cluster>-bastion-ssh`. */
  function BastionFirewallRuleName(clusterName: string): string
  {
    "allow-" + clusterName + "-bastion-ssh"
  }

  /** The network tag the bastion host carries: `<cluster>-bastion`. */
  function BastionTag(clusterName: string): string
  {
    clusterName + "-bastion"
  }

  /** `getAPISecurityPolicyName`: `allow-<cluster>-apiserver`. */
  function APISecurityPolicyName(clusterName: string): string
  {
    "allow-" + clusterName + "-apiserver"
  }

  /** The cluster name sits between a fixed prefix and a fixed suffix, so it can be read back. */
  lemma Unwrap(prefix: string, a: string, suffix: string)
    ensures (prefix + a + suffix)[|prefix|..|prefix| + |a|] == a
  {
  }

  /** Two clusters never share a firewall rule name. */
  lemma BastionFirewallRuleNameInjective(a: string, b: string)
    requires BastionFirewallRuleName(a) == BastionFirewallRuleName(b)
    ensures a == b
  {
    Unwrap("allow-", a, "-bastion-ssh");
    Unwrap("allow-", b, "-bastion-ssh");
  }

  /** Two clusters never share a security policy name. */
  lemma APISecurityPolicyNameInjective(a: string, b: string)
    requires APISecurityPolicyName(a) == APISecurityPolicyName(b)
    ensures a == b
  {
    Unwrap("allow-", a, "-apiserver");
    Unwrap("allow-", b, "-apiserver");
  }

  /** Two clusters never share a bastion tag. */
  lemma BastionTagInjective(a: string, b: string)
    requires BastionTag(a) == BastionTag(b)
    ensures a == b
  {
    Unwrap("", a, "-bastion");
    Unwrap("", b, "-bastion");
  }
}

=== FILE: nat_resolver.dfy ===
/**
 The NAT IP resolver (`nat.IPResolver`): finds the public IPs of the Cloud
 NAT of a (management) cluster, as the external addresses in the cluster's
 region that its router uses.

 The Kubernetes store, the routers API and the addresses API are
 collaborators: `ResolverApi` holds what each returns, the address list as
 the sequence of items its iterator yields before `iterator.Done`.
 */
module NatResolver {
  import opened Wrappers
  import opened Capg
  import opened Google

  /** `computepb.Address`: the address and the self-links of the resources using it. */
  datatype Address = Address(users: seq<string>, address: string)

  /** `computepb.Router`, of which only the self-link matters. */
  datatype Router = Router(selfLink: string)

  /** The calls to the collaborators, in the order `GetIPs` makes them. */
  datatype ResolverCall =
    | GetCluster(cluster: NamespacedName)
    | GetRouter(project: string, region: string, router: string)
    | ListAddresses(project: string, region: string)

  /** What the collaborators answer: the cluster read, the router read, and the
      items of the address iterator (each an address or an error). */
  datatype ResolverApi = ResolverApi(cluster: Result<GCPCluster>, router: Result<Router>, addresses: seq<Result<Address>>)

  /** `contains(slice, element)`. */
  method Contains(slice: seq<string>, element: string) returns (found: bool)
    ensures found <==> element in slice
  {
    found := false;
    var i := 0;
    while i < |slice|
      invariant 0 <= i <= |slice|
      invariant !found
      invariant element !in slice[..i]
    {
      if slice[i] == element {
        found := true;
        return;
      }
      i := i + 1;
    }
    assert slice[..i] == slice;
  }

  /** Draining the address iterator: its first error, or every address it yields. */
  function Drain(items: seq<Result<Address>>): (res: Result<seq<Address>>)
    ensures res.Ok? <==> forall i :: 0 <= i < |items| ==> items[i].Ok?
    ensures res.Ok? ==> |res.value| == |items| && forall i :: 0 <= i < |items| ==> res.value[i] == items[i].value
  {
    if |items| == 0 then Ok([])
    else match items[0]
      case Err(e) => Err(e)
      case Ok(a) =>
        match Drain(items[1..])
        case Err(e) =>
          assert !items[1..][0].Ok? || exists i :: 0 <= i < |items[1..]| && !items[1..][i].Ok?;
          Err(e)
        case Ok(rest) => Ok([a] + rest)
  }

  /** A failed drain reports the first error the iterator yields. */
  lemma {:induction false} DrainFirstError(items: seq<Result<Address>>)
    requires Drain(items).Err?
    ensures exists i :: 0 <= i < |items| && items[i] == Err(Drain(items).error) && forall j :: 0 <= j < i ==> items[j].Ok?
    decreases |items|
  {
    if items[0].Err? {
      assert items[0] == Err(Drain(items).error);
    } else {
      DrainFirstError(items[1..]);
      var i :| 0 <= i < |items[1..]| && items[1..][i] == Err(Drain(items[1..]).error) && forall j :: 0 <= j < i ==> items[1..][j].Ok?;
      assert items[i + 1] == Err(Drain(items).error);
      assert forall j :: 0 < j < i + 1 ==> items[j] == items[1..][j - 1];
    }
  }

  /** The addresses used by the resource with `selfLink`, in listing order. */
  function UsedBy(addresses: seq<Address>, selfLink: string): (ips: seq<string>)
    ensures |ips| <= |addresses|
  {
    if |addresses| == 0 then []
    else
      var rest := UsedBy(addresses[1..], selfLink);
      if selfLink in addresses[0].users then [addresses[0].address] + rest else rest
  }

  /** Every IP kept is the address of a listed address the resource uses. */
  lemma {:induction false} UsedBySound(addresses: seq<Address>, selfLink: string, ip: string)
    requires ip in UsedBy(addresses, selfLink)
    ensures exists i :: 0 <= i < |addresses| && addresses[i].address == ip && selfLink in addresses[i].users
    decreases |addresses|
  {
    if selfLink in addresses[0].users && ip == addresses[0].address {
      assert addresses[0].address == ip && selfLink in addresses[0].users;
    } else {
      UsedBySound(addresses[1..], selfLink, ip);
      var i :| 0 <= i < |addresses[1..]| && addresses[1..][i].address == ip && selfLink in addresses[1..][i].users;
      assert addresses[i + 1] == addresses[1..][i];
    }
  }

  /** Every listed address the resource uses is kept. */
  lemma {:induction false} UsedByComplete(addresses: seq<Address>, selfLink: string, i: nat)
    requires i < |addresses| && selfLink in addresses[i].users
    ensures addresses[i].address in UsedBy(addresses, selfLink)
    decreases i
  {
    if i > 0 {
      UsedByComplete(addresses[1..], selfLink, i - 1);
    }
  }

  /** Nothing is kept exactly when no listed address is used by the resource. */
  lemma UsedByEmpty(addresses: seq<Address>, selfLink: string)
    ensures UsedBy(addresses, selfLink) == [] <==> forall i :: 0 <= i < |addresses| ==> selfLink !in addresses[i].users
  {
    if UsedBy(addresses, selfLink) != [] {
      UsedBySound(addresses, selfLink, UsedBy(addresses, selfLink)[0]);
    }
    forall i | 0 <= i < |addresses| && selfLink in addresses[i].users
      ensures UsedBy(addresses, selfLink) != []
    {
      UsedByComplete(addresses, selfLink, i);
    }
  }

  /** The router request `GetIPs` makes for a cluster. */
  function RouterRequest(c: GCPCluster): ResolverCall
  {
    GetRouter(c.project, c.region, GetResourceName(c.network.router))
  }

  /** `GetIPs`: read the cluster, require its router, read the router, then keep
      every listed address the router uses; no such address is an error too. */
  method GetIPs(managementCluster: NamespacedName, api: ResolverApi) returns (calls: seq<ResolverCall>, res: Result<seq<string>>)
    ensures |calls| >= 1 && calls[0] == GetCluster(managementCluster)
    ensures api.cluster.Err? ==> calls == [GetCluster(managementCluster)] && res == Err(api.cluster.error)
    ensures api.cluster.Ok? && IsNilOrEmpty(api.cluster.value.network.router) ==>
              calls == [GetCluster(managementCluster)]
              && res == Err(NoRouterYet(managementCluster.namespace, managementCluster.name))
    ensures api.cluster.Ok? && !IsNilOrEmpty(api.cluster.value.network.router) && api.router.Err? ==>
              calls == [GetCluster(managementCluster), RouterRequest(api.cluster.value)]
              && res == Err(api.router.error)
    ensures api.cluster.Ok? && !IsNilOrEmpty(api.cluster.value.network.router) && api.router.Ok? ==>
              calls == [GetCluster(managementCluster), RouterRequest(api.cluster.value),
                        ListAddresses(api.cluster.value.project, api.cluster.value.region)]
    ensures api.cluster.Ok? && !IsNilOrEmpty(api.cluster.value.network.router) && api.router.Ok? && Drain(api.addresses).Err? ==>
              res == Err(Drain(api.addresses).error)
    ensures api.cluster.Ok? && !IsNilOrEmpty(api.cluster.value.network.router) && api.router.Ok? && Drain(api.addresses).Ok? ==>
              res == if UsedBy(Drain(api.addresses).value, api.router.value.selfLink) == []
                     then Err(NoNATIPsYet(api.cluster.value.namespace, api.cluster.value.name))
                     else Ok(UsedBy(Drain(api.addresses).value, api.router.value.selfLink))
    ensures res.Ok? ==> |res.value| > 0
  {
    var getCluster := GetCluster(managementCluster);
    if api.cluster.Err? {
      return [getCluster], Err(api.cluster.error);
    }
    var cluster := api.cluster.value;
    if IsNilOrEmpty(cluster.network.router) {
      return [getCluster], Err(NoRouterYet(managementCluster.namespace, managementCluster.name));
    }
    if api.router.Err? {
      return [getCluster, RouterRequest(cluster)], Err(api.router.error);
    }
    var router := api.router.value;
    calls := [getCluster, RouterRequest(cluster), ListAddresses(cluster.project, cluster.region)];
    var used := CollectUsed(api.addresses, router.selfLink);
    if used.Err? {
      return calls, Err(used.error);
    }
    if |used.value| == 0 {
      return calls, Err(NoNATIPsYet(cluster.namespace, cluster.name));
    }
    return calls, used;
  }

  /** The iterator loop of `GetIPs`: the addresses the resource with `selfLink`
      uses, in listing order, or the iterator's first error. */
  method CollectUsed(items: seq<Result<Address>>, selfLink: string) returns (res: Result<seq<string>>)
    ensures Drain(items).Err? ==> res == Err(Drain(items).error)
    ensures Drain(items).Ok? ==> res == Ok(UsedBy(Drain(items).value, selfLink))
  {
    var ips: seq<string> := [];
    var i := 0;
    while i < |items|
      invariant 0 <= i <= |items|
      invariant Drain(items[..i]).Ok?
      invariant ips == UsedBy(Drain(items[..i]).value, selfLink)
    {
      DrainAppend(items[..i], items[i]);
      assert items[..i + 1] == items[..i] + [items[i]];
      match items[i]
      case Err(e) =>
        DrainPrefixError(items, i);
        return Err(e);
      case Ok(address) =>
        UsedByAppend(Drain(items[..i]).value, address, selfLink);
        var used := Contains(address.users, selfLink);
        if used {
          ips := ips + [address.address];
        }
      i := i + 1;
    }
    assert items[..i] == items;
    return Ok(ips);
  }

  /** Draining one more item: its error if it is one, otherwise one more address. */
  lemma {:induction false} DrainAppend(items: seq<Result<Address>>, item: Result<Address>)
    requires Drain(items).Ok?
    ensures item.Err? ==> Drain(items + [item]) == Err(item.error)
    ensures item.Ok? ==> Drain(items + [item]) == Ok(Drain(items).value + [item.value])
    decreases |items|
  {
    if |items| == 0 {
      assert items + [item] == [item];
      assert [item][1..] == [];
      if item.Ok? {
        assert [item.value] + [] == [] + [item.value];
      }
    } else {
      assert (items + [item])[0] == items[0];
      assert (items + [item])[1..] == items[1..] + [item];
      DrainAppend(items[1..], item);
      if item.Ok? {
        var rest := Drain(items[1..]).value;
        assert [items[0].value] + (rest + [item.value]) == ([items[0].value] + rest) + [item.value];
      }
    }
  }

  /** When the item after an error-free prefix is an error, draining the
      whole list stops at it. */
  lemma {:induction false} DrainPrefixError(items: seq<Result<Address>>, i: nat)
    requires i < |items| && items[i].Err?
    requires Drain(items[..i]).Ok?
    ensures Drain(items) == Err(items[i].error)
    decreases i
  {
    if i > 0 {
      assert items[..i][1..] == items[1..][..i - 1];
      assert items[..i][0] == items[0];
      DrainPrefixError(items[1..], i - 1);
    }
  }

  /** Listing one more address extends the result by it exactly when the router uses it. */
  lemma {:induction false} UsedByAppend(addresses: seq<Address>, address: Address, selfLink: string)
    ensures UsedBy(addresses + [address], selfLink)
         == UsedBy(addresses, selfLink) + (if selfLink in address.users then [address.address] else [])
    decreases |addresses|
  {
    if |addresses| == 0 {
      assert addresses + [address] == [address];
      assert [address][1..] == [];
    } else {
      assert (addresses + [address])[1..] == addresses[1..] + [address];
      assert (addresses + [address])[0] == addresses[0];
      UsedByAppend(addresses[1..], address, selfLink);
    }
  }
}

=== FILE: policy_diff.dfy ===
/**
 The diff engine of the security policy client (`updateSecurityPolicy`): given
 the priorities present in the remote policy and the desired rules, decide
 which rules to patch, which to create and which priorities to remove.

 The remote policy is a map from priority to rule. The plan's patches and
 creates are ordered (one per desired rule, in order); its deletes are a set,
 because the source collects them in a Go map, whose iteration order is not
 defined. The default rule, at the largest priority, is never deleted.
 */
module PolicyDiff {
  import opened SecurityTypes

  /** One rule-level call on the remote policy. */
  datatype Op = Create(rule: GcpRule) | Patch(rule: GcpRule) | Delete(priority: int32)

  /** The update plan: patches and creates in order, then the priorities to remove. */
  datatype Plan = Plan(upserts: seq<Op>, deletes: set<int32>)

  /** The remote policy, keyed by priority. */
  type RemotePolicy = map<int32, GcpRule>

  /** `constructRulePriorityMap`: the priorities of a rule list (the keys of the Go map). */
  function Priorities(rules: seq<GcpRule>): (keys: set<int32>)
    ensures forall i :: 0 <= i < |rules| ==> rules[i].priority in keys
    ensures forall p :: p in keys ==> exists i :: 0 <= i < |rules| && rules[i].priority == p
  {
    if |rules| == 0 then {} else {rules[0].priority} + Priorities(rules[1..])
  }

  /** No two rules share a priority. */
  predicate DistinctPriorities(rules: seq<GcpRule>)
  {
    forall i, j :: 0 <= i < j < |rules| ==> rules[i].priority != rules[j].priority
  }

  /** The first loop of `updateSecurityPolicy`: each desired rule whose priority
      is still marked for deletion is unmarked and patched, every other one is
      created. Returns the calls and the priorities still marked. */
  function Upserts(desired: seq<GcpRule>, toDelete: set<int32>): (r: (seq<Op>, set<int32>))
    ensures |r.0| == |desired|
    ensures forall i :: 0 <= i < |desired| ==> r.0[i] == Patch(desired[i]) || r.0[i] == Create(desired[i])
    ensures r.1 == toDelete - Priorities(desired)
    decreases |desired|
  {
    if |desired| == 0 then ([], toDelete)
    else
      var priority := desired[0].priority;
      if priority in toDelete then
        var rest := Upserts(desired[1..], toDelete - {priority});
        ([Patch(desired[0])] + rest.0, rest.1)
      else
        var rest := Upserts(desired[1..], toDelete);
        ([Create(desired[0])] + rest.0, rest.1)
  }

  /** `updateSecurityPolicy`'s decisions: mark every current priority for
      deletion, patch or create each desired rule, then delete what is still
      marked except the default rule's priority. */
  function PlanUpdate(current: set<int32>, desired: seq<GcpRule>): (plan: Plan)
    ensures |plan.upserts| == |desired|
    ensures forall i :: 0 <= i < |desired| ==>
              plan.upserts[i] == Patch(desired[i]) || plan.upserts[i] == Create(desired[i])
    ensures plan.deletes == current - Priorities(desired) - {MaxInt32}
    ensures MaxInt32 !in plan.deletes
  {
    var (upserts, rulesToDelete) := Upserts(desired, current);
    Plan(upserts, set p | p in rulesToDelete && p != DefaultRulePriority)
  }

  /** Which call the first loop makes for the `i`-th desired rule: a patch exactly
      when its priority was marked and no earlier desired rule has unmarked it. */
  lemma {:induction false} UpsertKind(desired: seq<GcpRule>, toDelete: set<int32>, i: nat)
    requires i < |desired|
    ensures Upserts(desired, toDelete).0[i]
         == if desired[i].priority in toDelete && desired[i].priority !in Priorities(desired[..i])
            then Patch(desired[i]) else Create(desired[i])
    decreases |desired|
  {
    if i == 0 {
      assert desired[..0] == [];
    } else {
      var p := desired[0].priority;
      var next := if p in toDelete then toDelete - {p} else toDelete;
      UpsertKind(desired[1..], next, i - 1);
      assert Upserts(desired, toDelete).0[i] == Upserts(desired[1..], next).0[i - 1];
      PrioritiesOfPrefix(desired, i);
      assert desired[1..][i - 1] == desired[i];
    }
  }

  /** The priorities before position `i` are the first one and those before
      position `i - 1` of the rest. */
  lemma PrioritiesOfPrefix(desired: seq<GcpRule>, i: nat)
    requires 0 < i <= |desired|
    ensures Priorities(desired[..i]) == {desired[0].priority} + Priorities(desired[1..][..i - 1])
  {
    assert desired[..i][1..] == desired[1..][..i - 1];
  }

  /** The plan patches a desired rule exactly when its priority is on the remote
      policy and no earlier desired rule has the same priority; it creates it otherwise. */
  lemma PlanClassifies(current: set<int32>, desired: seq<GcpRule>)
    ensures forall i :: 0 <= i < |desired| ==>
              PlanUpdate(current, desired).upserts[i]
              == if desired[i].priority in current && desired[i].priority !in Priorities(desired[..i])
                 then Patch(desired[i]) else Create(desired[i])
  {
    forall i | 0 <= i < |desired|
      ensures PlanUpdate(current, desired).upserts[i]
              == if desired[i].priority in current && desired[i].priority !in Priorities(desired[..i])
                 then Patch(desired[i]) else Create(desired[i])
    {
      UpsertKind(desired, current, i);
    }
  }

  /** The effect of one call on the remote policy. */
  function ApplyOp(m: RemotePolicy, op: Op): RemotePolicy
  {
    match op
    case Create(rule) => m[rule.priority := rule]
    case Patch(rule) => m[rule.priority := rule]
    case Delete(priority) => m - {priority}
  }

  /** The effect of a sequence of calls, in order. */
  function ApplyOps(m: RemotePolicy, ops: seq<Op>): RemotePolicy
    decreases |ops|
  {
    if |ops| == 0 then m else ApplyOps(ApplyOp(m, ops[0]), ops[1..])
  }

  /** The effect of a whole plan: its patches and creates, then its deletes in any order. */
  function ApplyPlan(m: RemotePolicy, plan: Plan): RemotePolicy
  {
    ApplyOps(m, plan.upserts) - plan.deletes
  }

  /** `ops` writes the rules of `rules`, one each, in order. */
  predicate WritesRules(ops: seq<Op>, rules: seq<GcpRule>)
  {
    && |ops| == |rules|
    && forall i :: 0 <= i < |ops| ==> ops[i] == Patch(rules[i]) || ops[i] == Create(rules[i])
  }

  /** Writing rules adds exactly their priorities to the keys. */
  lemma {:induction false} WritesKeys(m: RemotePolicy, ops: seq<Op>, rules: seq<GcpRule>)
    requires WritesRules(ops, rules)
    ensures ApplyOps(m, ops).Keys == m.Keys + Priorities(rules)
    decreases |ops|
  {
    if |ops| > 0 {
      WritesKeys(ApplyOp(m, ops[0]), ops[1..], rules[1..]);
    }
  }

  /** Calls that never touch priority `p` leave its entry as it was. */
  lemma {:induction false} Untouched(m: RemotePolicy, ops: seq<Op>, p: int32)
    requires forall j :: 0 <= j < |ops| ==> ops[j].Delete? || ops[j].rule.priority != p
    requires forall j :: 0 <= j < |ops| ==> ops[j].Delete? ==> ops[j].priority != p
    ensures p in ApplyOps(m, ops) <==> p in m
    ensures p in m ==> ApplyOps(m, ops)[p] == m[p]
    decreases |ops|
  {
    if |ops| > 0 {
      Untouched(ApplyOp(m, ops[0]), ops[1..], p);
    }
  }

  /** With distinct priorities, each written priority ends up holding its rule. */
  lemma {:induction false} WritesValues(m: RemotePolicy, ops: seq<Op>, rules: seq<GcpRule>)
    requires WritesRules(ops, rules) && DistinctPriorities(rules)
    ensures forall i :: 0 <= i < |rules| ==>
              rules[i].priority in ApplyOps(m, ops) && ApplyOps(m, ops)[rules[i].priority] == rules[i]
    decreases |ops|
  {
    if |ops| > 0 {
      var m' := ApplyOp(m, ops[0]);
      WritesValues(m', ops[1..], rules[1..]);
      Untouched(m', ops[1..], rules[0].priority);
      forall i | 0 <= i < |rules|
        ensures rules[i].priority in ApplyOps(m, ops) && ApplyOps(m, ops)[rules[i].priority] == rules[i]
      {
        if i > 0 {
          assert rules[1..][i - 1] == rules[i];
        }
      }
    }
  }

  /** Writing rules leaves every priority they do not mention as it was. */
  lemma WritesElsewhereUntouched(m: RemotePolicy, ops: seq<Op>, rules: seq<GcpRule>, p: int32)
    requires WritesRules(ops, rules) && p !in Priorities(rules)
    ensures p in ApplyOps(m, ops) <==> p in m
    ensures p in m ==> ApplyOps(m, ops)[p] == m[p]
  {
    Untouched(m, ops, p);
  }

  /** Key-set theorem: after the plan runs, the remote policy holds exactly the
      desired priorities, plus the default rule's if it was there before. */
  lemma PlanKeys(m: RemotePolicy, desired: seq<GcpRule>)
    ensures ApplyPlan(m, PlanUpdate(m.Keys, desired)).Keys == Priorities(desired) + (m.Keys * {MaxInt32})
  {
    var plan := PlanUpdate(m.Keys, desired);
    WritesKeys(m, plan.upserts, desired);
  }

  /** Content theorem: with distinct desired priorities, each desired priority
      holds its desired rule after the plan runs. */
  lemma PlanValues(m: RemotePolicy, desired: seq<GcpRule>)
    requires DistinctPriorities(desired)
    ensures forall i :: 0 <= i < |desired| ==>
              var after := ApplyPlan(m, PlanUpdate(m.Keys, desired));
              desired[i].priority in after && after[desired[i].priority] == desired[i]
  {
    var plan := PlanUpdate(m.Keys, desired);
    WritesValues(m, plan.upserts, desired);
  }

  /** The default rule survives every update: it is never deleted, and unless a
      desired rule targets its priority it is left exactly as it was. */
  lemma DefaultRuleSurvives(m: RemotePolicy, desired: seq<GcpRule>)
    requires MaxInt32 in m
    ensures MaxInt32 in ApplyPlan(m, PlanUpdate(m.Keys, desired))
    ensures MaxInt32 !in Priorities(desired) ==>
              ApplyPlan(m, PlanUpdate(m.Keys, desired))[MaxInt32] == m[MaxInt32]
  {
    var plan := PlanUpdate(m.Keys, desired);
    if MaxInt32 !in Priorities(desired) {
      WritesElsewhereUntouched(m, plan.upserts, desired, MaxInt32);
    }
    PlanKeys(m, desired);
  }

  /** Re-applying a policy whose priorities are already the remote ones patches
      every rule and creates and deletes nothing (it is not zero calls). */
  lemma ReapplyOnlyPatches(current: set<int32>, desired: seq<GcpRule>)
    requires DistinctPriorities(desired) && current == Priorities(desired)
    ensures forall i :: 0 <= i < |desired| ==> PlanUpdate(current, desired).upserts[i] == Patch(desired[i])
    ensures PlanUpdate(current, desired).deletes == {}
  {
    PlanClassifies(current, desired);
    forall i | 0 <= i < |desired|
      ensures desired[i].priority !in Priorities(desired[..i])
    {
      NotInEarlier(desired, i);
    }
  }

  /** With distinct priorities no earlier rule has the priority of rule `i`. */
  lemma NotInEarlier(desired: seq<GcpRule>, i: nat)
    requires DistinctPriorities(desired) && i < |desired|
    ensures desired[i].priority !in Priorities(desired[..i])
  {
    var prefix := desired[..i];
    assert forall j :: 0 <= j < |prefix| ==> prefix[j].priority != desired[i].priority;
  }

  /** With distinct priorities, the rest of the list is distinct and misses the first priority. */
  lemma DistinctTail(desired: seq<GcpRule>)
    requires DistinctPriorities(desired) && |desired| > 0
    ensures DistinctPriorities(desired[1..])
    ensures desired[0].priority !in Priorities(desired[1..])
  {
    var rest := desired[1..];
    assert forall j :: 0 <= j < |rest| ==> rest[j] == desired[j + 1];
  }

  /** Every call of `ops` is one the remote policy accepts: a create only for a
      missing priority, a patch or a delete only for a present one. */
  predicate Executable(m: RemotePolicy, ops: seq<Op>)
    decreases |ops|
  {
    if |ops| == 0 then true
    else
      var ok := match ops[0]
        case Create(rule) => rule.priority !in m
        case Patch(rule) => rule.priority in m
        case Delete(priority) => priority in m;
      ok && Executable(ApplyOp(m, ops[0]), ops[1..])
  }

  /** The first loop's calls are all accepted when the marked priorities are
      exactly the present ones among the desired. */
  lemma {:induction false} UpsertsExecutable(m: RemotePolicy, desired: seq<GcpRule>, toDelete: set<int32>)
    requires DistinctPriorities(desired)
    requires forall q :: q in Priorities(desired) ==> (q in m <==> q in toDelete)
    ensures Executable(m, Upserts(desired, toDelete).0)
    decreases |desired|
  {
    if |desired| > 0 {
      var first := desired[0];
      var p := first.priority;
      var rest := desired[1..];
      DistinctTail(desired);
      var m' := m[p := first];
      var next := if p in toDelete then toDelete - {p} else toDelete;
      var op := if p in toDelete then Patch(first) else Create(first);
      var tail := Upserts(rest, next).0;
      assert Upserts(desired, toDelete).0 == [op] + tail;
      assert ([op] + tail)[1..] == tail;
      assert ApplyOp(m, op) == m';
      assert forall q :: q in Priorities(rest) ==> (q in m' <==> q in next);
      UpsertsExecutable(m', rest, next);
    }
  }

  /** With distinct desired priorities the plan never asks the remote policy
      for something it refuses: creates hit free priorities, patches and
      deletes hit present ones. */
  lemma PlanExecutable(m: RemotePolicy, desired: seq<GcpRule>)
    requires DistinctPriorities(desired)
    ensures Executable(m, PlanUpdate(m.Keys, desired).upserts)
    ensures PlanUpdate(m.Keys, desired).deletes <= ApplyOps(m, PlanUpdate(m.Keys, desired).upserts).Keys
  {
    var plan := PlanUpdate(m.Keys, desired);
    UpsertsExecutable(m, desired, m.Keys);
    WritesKeys(m, plan.upserts, desired);
  }
}

=== FILE: security_client.dfy ===
/**
 The security policy client (`security.Client`): applies a policy to the
 compute API (create, or on conflict diff against the existing policy), binds
 it to the cluster's API backend service, and deletes it.

 The compute API is a collaborator: `PoliciesApi` holds what each call
 returns, and every function returns the calls it made, in order.
 */
module SecurityClient {
  import opened Wrappers
  import opened Capg
  import opened Google
  import opened SecurityTypes
  import opened PolicyDiff

  /** The calls to the compute API (each mutating call includes its `op.Wait`). */
  datatype ApiCall =
    | InsertPolicy(policy: GcpPolicy)
    | GetPolicy(name: string)
    | RuleCall(op: Op)
    | SetSecurityPolicy(backendService: string)
    | DeletePolicyCall(name: string)

  /** What the compute API answers. `insert` covers the insert, its wait and the
      read-back of the self-link; `current` is the rule list of the existing
      policy; `rule` answers each AddRule / PatchRule / RemoveRule; `bind` is
      the backend-service `SetSecurityPolicy`; `delete` and `deleteWait` are
      the policy delete and the wait on it. */
  datatype PoliciesApi = PoliciesApi(
    insert: Outcome,
    current: Result<seq<GcpRule>>,
    rule: Op -> Outcome,
    bind: Outcome,
    delete: Outcome,
    deleteWait: Outcome)

  /** Issues rule calls in order, stopping at the first failure. */
  function RunOps(ops: seq<Op>, respond: Op -> Outcome): (run: Run<ApiCall>)
    ensures |run.calls| <= |ops|
    ensures forall i :: 0 <= i < |run.calls| ==> run.calls[i] == RuleCall(ops[i])
    ensures run.outcome == Pass <==> |run.calls| == |ops| && forall i :: 0 <= i < |ops| ==> respond(ops[i]) == Pass
    ensures run.outcome.Fail? ==>
              && |run.calls| > 0
              && run.outcome == respond(ops[|run.calls| - 1])
              && forall i :: 0 <= i < |run.calls| - 1 ==> respond(ops[i]) == Pass
    decreases |ops|
  {
    if |ops| == 0 then Run([], Pass)
    else
      match respond(ops[0])
      case Fail(e) => Run([RuleCall(ops[0])], Fail(e))
      case Pass =>
        var rest := RunOps(ops[1..], respond);
        assert forall i :: 0 < i < |ops| ==> ops[1..][i - 1] == ops[i];
        After([RuleCall(ops[0])], rest)
  }

  /** The order in which the model visits the leftover priorities: the order
      they first appear in the existing policy's rule list. */
  function DeleteOrder(listed: seq<GcpRule>, deletes: set<int32>): (order: seq<int32>)
    ensures forall p :: p in order <==> p in deletes && p in Priorities(listed)
    ensures forall i, j :: 0 <= i < j < |order| ==> order[i] != order[j]
    decreases |listed|
  {
    if |listed| == 0 then []
    else if listed[0].priority in deletes then
      [listed[0].priority] + DeleteOrder(listed[1..], deletes - {listed[0].priority})
    else DeleteOrder(listed[1..], deletes)
  }

  /** One delete call per priority, in order. */
  function DeleteOps(order: seq<int32>): (ops: seq<Op>)
    ensures |ops| == |order|
    ensures forall i :: 0 <= i < |order| ==> ops[i] == Delete(order[i])
  {
    if |order| == 0 then [] else [Delete(order[0])] + DeleteOps(order[1..])
  }

  /** All rule calls of the update path: patches and creates, then deletes. */
  function UpdateOps(listed: seq<GcpRule>, plan: Plan): seq<Op>
  {
    plan.upserts + DeleteOps(DeleteOrder(listed, plan.deletes))
  }

  /** `updateSecurityPolicy`: read the existing policy, then run the plan. */
  function UpdateSecurityPolicy(gcp: GcpPolicy, api: PoliciesApi): (run: Run<ApiCall>)
    ensures |run.calls| >= 1 && run.calls[0] == GetPolicy(gcp.name)
    ensures api.current.Err? ==> run == Run([GetPolicy(gcp.name)], Fail(api.current.error))
    ensures api.current.Ok? ==>
              var ops := UpdateOps(api.current.value, PlanUpdate(Priorities(api.current.value), gcp.rules));
              && |run.calls| <= 1 + |ops|
              && (forall i :: 1 <= i < |run.calls| ==> run.calls[i] == RuleCall(ops[i - 1]))
              && (run.outcome == Pass <==> |run.calls| == 1 + |ops| && forall i :: 0 <= i < |ops| ==> api.rule(ops[i]) == Pass)
              && (run.outcome.Fail? ==>
                    && |run.calls| >= 2
                    && run.outcome == api.rule(ops[|run.calls| - 2])
                    && forall i :: 0 <= i < |run.calls| - 2 ==> api.rule(ops[i]) == Pass)
  {
    var get := GetPolicy(gcp.name);
    match api.current
    case Err(e) => Run([get], Fail(e))
    case Ok(listed) =>
      var plan := PlanUpdate(Priorities(listed), gcp.rules);
      After([get], RunOps(UpdateOps(listed, plan), api.rule))
  }

  /** `applySecurityPolicy`: create the policy with all its rules; a conflict
      (it already exists) switches to the update path, any other error is returned. */
  function ApplySecurityPolicy(policy: Policy, api: PoliciesApi): (run: Run<ApiCall>)
    ensures |run.calls| >= 1 && run.calls[0] == InsertPolicy(ToGCPSecurityPolicy(policy))
    ensures api.insert == Pass ==> run == Run([InsertPolicy(ToGCPSecurityPolicy(policy))], Pass)
    ensures HasHttpCode(api.insert, Conflict) ==> |run.calls| >= 2 && run.calls[1] == GetPolicy(policy.name)
    ensures HasHttpCode(api.insert, Conflict) ==>
              run == After([InsertPolicy(ToGCPSecurityPolicy(policy))], UpdateSecurityPolicy(ToGCPSecurityPolicy(policy), api))
    ensures api.insert.Fail? && !HasHttpCode(api.insert, Conflict) ==>
              run == Run([InsertPolicy(ToGCPSecurityPolicy(policy))], api.insert)
    ensures forall i :: 0 <= i < |run.calls| ==> run.calls[i].InsertPolicy? || run.calls[i].GetPolicy? || run.calls[i].RuleCall?
  {
    var gcp := ToGCPSecurityPolicy(policy);
    match api.insert
    case Pass => Run([InsertPolicy(gcp)], Pass)
    case Fail(e) =>
      if HasHttpCode(api.insert, Conflict) then After([InsertPolicy(gcp)], UpdateSecurityPolicy(gcp, api))
      else Run([InsertPolicy(gcp)], Fail(e))
  }

  /** `ApplyPolicy`: refuses a cluster without an API backend service before
      touching the API; otherwise applies the policy and then binds it to the
      backend service named by the last segment of its self-link. */
  function ApplyPolicy(cluster: GCPCluster, policy: Policy, api: PoliciesApi): (run: Run<ApiCall>)
    ensures IsNilOrEmpty(cluster.network.apiServerBackendService) ==> run == Run([], Fail(NoBackendService))
    ensures !IsNilOrEmpty(cluster.network.apiServerBackendService) ==>
              |run.calls| >= 1 && run.calls[0] == InsertPolicy(ToGCPSecurityPolicy(policy))
    ensures run.outcome == Pass ==>
              && api.bind == Pass
              && |run.calls| >= 2
              && run.calls[|run.calls| - 1] == SetSecurityPolicy(GetResourceName(cluster.network.apiServerBackendService))
    ensures forall i :: 0 <= i < |run.calls| - 1 ==> !run.calls[i].SetSecurityPolicy?
    ensures !IsNilOrEmpty(cluster.network.apiServerBackendService) && ApplySecurityPolicy(policy, api).outcome.Fail? ==>
              run == ApplySecurityPolicy(policy, api)
    ensures !IsNilOrEmpty(cluster.network.apiServerBackendService) && ApplySecurityPolicy(policy, api).outcome == Pass ==>
              && run.calls == ApplySecurityPolicy(policy, api).calls + [SetSecurityPolicy(GetResourceName(cluster.network.apiServerBackendService))]
              && run.outcome == api.bind
  {
    var backend := cluster.network.apiServerBackendService;
    if IsNilOrEmpty(backend) then Run([], Fail(NoBackendService))
    else
      var applied := ApplySecurityPolicy(policy, api);
      if applied.outcome.Fail? then applied
      else After(applied.calls, Run([SetSecurityPolicy(GetResourceName(backend))], api.bind))
  }

  /** `DeletePolicy`: refuses while the cluster still has a backend service at
      all (even an empty one), so the policy is only removed once nothing uses
      it; not-found from the delete call counts as already deleted. */
  function DeletePolicy(cluster: GCPCluster, name: string, api: PoliciesApi): (run: Run<ApiCall>)
    ensures cluster.network.apiServerBackendService.Some? ==> run == Run([], Fail(BackendServiceNotDeleted))
    ensures cluster.network.apiServerBackendService.None? ==> run.calls == [DeletePolicyCall(name)]
    ensures cluster.network.apiServerBackendService.None? && HasHttpCode(api.delete, NotFound) ==> run.outcome == Pass
    ensures run.outcome == Pass ==>
              cluster.network.apiServerBackendService.None?
              && (HasHttpCode(api.delete, NotFound) || (api.delete == Pass && api.deleteWait == Pass))
    ensures cluster.network.apiServerBackendService.None? && api.delete == Pass ==> run.outcome == api.deleteWait
    ensures cluster.network.apiServerBackendService.None? && api.delete.Fail? && !HasHttpCode(api.delete, NotFound) ==>
              run.outcome == api.delete
  {
    if cluster.network.apiServerBackendService.Some? then Run([], Fail(BackendServiceNotDeleted))
    else
      var call := DeletePolicyCall(name);
      if HasHttpCode(api.delete, NotFound) then Run([call], Pass)
      else if api.delete.Fail? then Run([call], api.delete)
      else Run([call], api.deleteWait)
  }

  /** Running calls one after the other composes their effects. */
  lemma {:induction false} ApplyOpsAppend(m: RemotePolicy, a: seq<Op>, b: seq<Op>)
    ensures ApplyOps(m, a + b) == ApplyOps(ApplyOps(m, a), b)
    decreases |a|
  {
    if |a| > 0 {
      assert (a + b)[0] == a[0];
      assert (a + b)[1..] == a[1..] + b;
      ApplyOpsAppend(ApplyOp(m, a[0]), a[1..], b);
    } else {
      assert a + b == b;
    }
  }

  /** Deleting priorities one by one removes exactly those priorities. */
  lemma {:induction false} DeletesRemove(m: RemotePolicy, order: seq<int32>)
    ensures ApplyOps(m, DeleteOps(order)) == m - (set p | p in order)
    decreases |order|
  {
    if |order| > 0 {
      DeletesRemove(m - {order[0]}, order[1..]);
      assert DeleteOps(order)[1..] == DeleteOps(order[1..]);
      assert (set p | p in order) == {order[0]} + (set p | p in order[1..]);
    }
  }

  /** The update path succeeds when reading the policy and every rule call do. */
  lemma UpdateSucceeds(gcp: GcpPolicy, api: PoliciesApi)
    requires api.current.Ok?
    requires forall op :: api.rule(op) == Pass
    ensures UpdateSecurityPolicy(gcp, api).outcome == Pass
  {
  }

  /** The rule calls of the update path, once all applied, leave the remote
      policy exactly as the plan says, whatever the order the deletes ran in. */
  lemma UpdateRunsPlan(gcp: GcpPolicy, listed: seq<GcpRule>, m: RemotePolicy)
    requires m.Keys == Priorities(listed)
    ensures ApplyOps(m, UpdateOps(listed, PlanUpdate(m.Keys, gcp.rules)))
         == ApplyPlan(m, PlanUpdate(m.Keys, gcp.rules))
  {
    var plan := PlanUpdate(m.Keys, gcp.rules);
    var order := DeleteOrder(listed, plan.deletes);
    ApplyOpsAppend(m, plan.upserts, DeleteOps(order));
    DeletesRemove(ApplyOps(m, plan.upserts), order);
    assert (set p | p in order) == plan.deletes;
  }

  /** The translated policy's priorities: the default rule's joins the user rules'. */
  lemma TranslatedKeys(policy: Policy)
    ensures Priorities(ToGCPSecurityPolicy(policy).rules) == {MaxInt32} + Priorities(ToGcpRules(policy.rules))
  {
    var rules := ToGCPSecurityPolicy(policy).rules;
    assert rules[1..] == ToGcpRules(policy.rules);
  }

  /** The default rule's priority stays distinct from distinct user priorities
      that avoid it. */
  lemma TranslatedDistinct(policy: Policy)
    requires DistinctPriorities(ToGcpRules(policy.rules))
    requires forall i :: 0 <= i < |policy.rules| ==> policy.rules[i].priority != MaxInt32
    ensures DistinctPriorities(ToGCPSecurityPolicy(policy).rules)
  {
    var gcp := ToGCPSecurityPolicy(policy);
    var user := ToGcpRules(policy.rules);
    forall i, j | 0 <= i < j < |gcp.rules|
      ensures gcp.rules[i].priority != gcp.rules[j].priority
    {
      assert gcp.rules[j].priority == policy.rules[j - 1].priority;
      if i > 0 {
        assert gcp.rules[i].priority == user[i - 1].priority;
        assert gcp.rules[j].priority == user[j - 1].priority;
      }
    }
  }

  /** Applying a policy that already exists succeeds when every call does:
      it ends by binding the policy to the backend service. */
  lemma ApplyExistingPolicySucceeds(cluster: GCPCluster, policy: Policy, api: PoliciesApi)
    requires !IsNilOrEmpty(cluster.network.apiServerBackendService)
    requires api.insert == Fail(Remote(Conflict)) && api.bind == Pass
    requires api.current.Ok?
    requires forall op :: api.rule(op) == Pass
    ensures ApplyPolicy(cluster, policy, api).outcome == Pass
  {
    var gcp := ToGCPSecurityPolicy(policy);
    UpdateSucceeds(gcp, api);
    assert ApplySecurityPolicy(policy, api).outcome == UpdateSecurityPolicy(gcp, api).outcome;
  }

  /** The rule calls `ApplyPolicy` makes for a policy that already exists are
      exactly the update path's patches, creates and removals: after the insert
      and the read, and before the bind. */
  lemma ApplyExistingPolicyRuleCalls(cluster: GCPCluster, policy: Policy, api: PoliciesApi)
    requires !IsNilOrEmpty(cluster.network.apiServerBackendService)
    requires api.insert == Fail(Remote(Conflict)) && api.current.Ok?
    ensures ApplyPolicy(cluster, policy, api).outcome == Pass ==>
            var ops := UpdateOps(api.current.value, PlanUpdate(Priorities(api.current.value), ToGCPSecurityPolicy(policy).rules));
            var calls := ApplyPolicy(cluster, policy, api).calls;
            && |calls| == |ops| + 3
            && calls[0] == InsertPolicy(ToGCPSecurityPolicy(policy))
            && calls[1] == GetPolicy(policy.name)
            && (forall i :: 0 <= i < |ops| ==> calls[i + 2] == RuleCall(ops[i]))
            && calls[|ops| + 2] == SetSecurityPolicy(GetResourceName(cluster.network.apiServerBackendService))
  {
    var gcp := ToGCPSecurityPolicy(policy);
    var update := UpdateSecurityPolicy(gcp, api);
    var applied := ApplySecurityPolicy(policy, api);
    assert applied.calls == [InsertPolicy(gcp)] + update.calls;
    if ApplyPolicy(cluster, policy, api).outcome == Pass {
      assert update.outcome == Pass;
    }
  }

  /** The remote policy `m` after the update path has applied all its rule calls for `policy`. */
  function Updated(m: RemotePolicy, api: PoliciesApi, policy: Policy): RemotePolicy
    requires api.current.Ok?
  {
    ApplyOps(m, UpdateOps(api.current.value, PlanUpdate(m.Keys, ToGCPSecurityPolicy(policy).rules)))
  }

  /** End to end, keys: applying a policy that already exists leaves the remote
      policy with exactly the default rule's and the user rules' priorities,
      whatever priorities it held before. */
  lemma ExistingPolicyKeys(policy: Policy, api: PoliciesApi, m: RemotePolicy)
    requires api.current.Ok? && m.Keys == Priorities(api.current.value)
    ensures Updated(m, api, policy).Keys == {MaxInt32} + Priorities(ToGcpRules(policy.rules))
  {
    var gcp := ToGCPSecurityPolicy(policy);
    UpdateRunsPlan(gcp, api.current.value, m);
    TranslatedKeys(policy);
    PlanKeys(m, gcp.rules);
  }

  /** End to end, values: with distinct user priorities, each holds its user
      rule afterwards, and the largest priority holds the default rule. */
  lemma ExistingPolicyValues(policy: Policy, api: PoliciesApi, m: RemotePolicy)
    requires api.current.Ok? && m.Keys == Priorities(api.current.value)
    requires DistinctPriorities(ToGcpRules(policy.rules))
    requires forall i :: 0 <= i < |policy.rules| ==> policy.rules[i].priority != MaxInt32
    ensures var after := Updated(m, api, policy);
            && MaxInt32 in after && after[MaxInt32] == GetDefaultRule(policy.defaultAction)
            && forall i :: 0 <= i < |policy.rules| ==>
                 policy.rules[i].priority in after && after[policy.rules[i].priority] == ToGcpRule(policy.rules[i])
  {
    var gcp := ToGCPSecurityPolicy(policy);
    UpdateRunsPlan(gcp, api.current.value, m);
    TranslatedDistinct(policy);
    PlanValues(m, gcp.rules);
    var after := ApplyPlan(m, PlanUpdate(m.Keys, gcp.rules));
    assert after[gcp.rules[0].priority] == gcp.rules[0];
    forall i | 0 <= i < |policy.rules|
      ensures policy.rules[i].priority in after && after[policy.rules[i].priority] == ToGcpRule(policy.rules[i])
    {
      assert after[gcp.rules[i + 1].priority] == gcp.rules[i + 1];
      assert gcp.rules[i + 1] == ToGcpRules(policy.rules)[i];
    }
  }
}

=== FILE: security_reconciler.dfy ===
/**
 The API security policy reconciler (`security.PolicyReconciler`): builds the
 policy that guards a cluster's Kubernetes API load balancer from the API
 allow-list annotation, the management cluster's NAT IPs and the operator's
 default allow-list, and hands it to the security policy client; on deletion
 it asks the client to delete the policy by name.

 The NAT IP resolver is a collaborator whose answer is a parameter; the
 security policy client is a responder, as in the firewall reconciler.
 */
module SecurityReconciler {
  import opened Wrappers
  import opened Strings
  import opened Capg
  import opened Cidr
  import opened Names
  import opened SecurityTypes
  import opened PolicyDiff
  import SecurityClient

  const AnnotationAPIAllowListSubnets := "api.gcp.giantswarm.io/allowlist"
  const PolicyDescription := "allow IPs to connect to kubernetes api"
  const UserRuleDescription := "allow user specified ips to connect to kubernetes api"
  const NATRuleDescription := "allow MC NAT IPs"
  const DefaultAllowListDescription := "allow default IP ranges"
  const UserRulePriority: int32 := 0
  const NATRulePriority: int32 := 1
  const DefaultAllowListPriority: int32 := 2

  /** `PolicyReconciler` and its configuration. */
  datatype PolicyReconciler = PolicyReconciler(defaultAPIAllowList: seq<string>, managementCluster: NamespacedName)

  /** The calls to the reconciler's collaborators: the NAT IP resolver, then the
      security policy client. */
  datatype Call = ResolveIPs(cluster: NamespacedName) | ApplyPolicy(policy: Policy) | DeletePolicy(name: string)

  /** What the security policy client answers to each of its calls. */
  type Responder = Call -> Outcome

  /** The API annotation is present, non-empty, and not a list of CIDRs. */
  predicate AnnotationRejected(valid: CidrCheck, cluster: GCPCluster)
  {
    && AnnotationAPIAllowListSubnets in cluster.annotations
    && cluster.annotations[AnnotationAPIAllowListSubnets] != ""
    && !AllValid(valid, Split(cluster.annotations[AnnotationAPIAllowListSubnets], Separator))
  }

  /** `getIPRanges`: no annotation is no ranges; a present one goes through the
      strict parser, so a present but empty one is no ranges too. */
  function IPRanges(valid: CidrCheck, cluster: GCPCluster): (res: Result<seq<string>>)
    ensures AnnotationAPIAllowListSubnets !in cluster.annotations ==> res == Ok([])
    ensures AnnotationAPIAllowListSubnets in cluster.annotations && cluster.annotations[AnnotationAPIAllowListSubnets] == "" ==> res == Ok([])
    ensures res.Err? <==> AnnotationRejected(valid, cluster)
    ensures res.Err? ==> res.error == InvalidCIDRs(cluster.annotations[AnnotationAPIAllowListSubnets])
    ensures res.Ok? && AnnotationAPIAllowListSubnets in cluster.annotations && cluster.annotations[AnnotationAPIAllowListSubnets] != "" ==>
              res.value == Split(cluster.annotations[AnnotationAPIAllowListSubnets], Separator) && AllValid(valid, res.value)
  {
    if AnnotationAPIAllowListSubnets !in cluster.annotations then Ok([])
    else ParseFromCommaSeparated(valid, cluster.annotations[AnnotationAPIAllowListSubnets])
  }

  /** `getUserRules`: one allow rule at priority 0 for the annotation's CIDRs,
      or no rule when there are none; an annotation that does not parse is an error. */
  function UserRules(valid: CidrCheck, cluster: GCPCluster): (res: Result<seq<PolicyRule>>)
    ensures res.Err? <==> AnnotationRejected(valid, cluster)
    ensures res.Err? ==> res.error == InvalidCIDRs(cluster.annotations[AnnotationAPIAllowListSubnets])
    ensures res == Ok([]) <==>
              AnnotationAPIAllowListSubnets !in cluster.annotations || cluster.annotations[AnnotationAPIAllowListSubnets] == ""
    ensures res.Ok? && res.value != [] ==>
              var value := cluster.annotations[AnnotationAPIAllowListSubnets];
              && res.value == [PolicyRule(ActionAllow, UserRuleDescription, Split(value, Separator), UserRulePriority)]
              && AllValid(valid, res.value[0].sourceIPRanges)
  {
    var sourceIPRanges :- IPRanges(valid, cluster);
    if |sourceIPRanges| != 0 then
      Ok([PolicyRule(ActionAllow, UserRuleDescription, sourceIPRanges, UserRulePriority)])
    else Ok([])
  }

  /** `getDefaultRules` once the NAT IPs are known: the management cluster's NAT
      IPs at priority 1, the default allow-list at priority 2. */
  function DefaultRules(r: PolicyReconciler, natIPs: seq<string>): (rules: seq<PolicyRule>)
    ensures |rules| == 2
    ensures rules[0].priority == NATRulePriority && rules[0].sourceIPRanges == natIPs
    ensures rules[1].priority == DefaultAllowListPriority && rules[1].sourceIPRanges == r.defaultAPIAllowList
    ensures forall i :: 0 <= i < |rules| ==> rules[i].action == ActionAllow
  {
    [PolicyRule(ActionAllow, NATRuleDescription, natIPs, NATRulePriority),
     PolicyRule(ActionAllow, DefaultAllowListDescription, r.defaultAPIAllowList, DefaultAllowListPriority)]
  }

  /** Priorities strictly increase along the rule list. */
  predicate StrictlyIncreasing(rules: seq<PolicyRule>)
  {
    forall i, j :: 0 <= i < j < |rules| ==> rules[i].priority < rules[j].priority
  }

  /** The policy `Reconcile` applies: user rules, then the default rules. */
  function DesiredPolicy(r: PolicyReconciler, cluster: GCPCluster, userRules: seq<PolicyRule>, natIPs: seq<string>): (policy: Policy)
    requires |userRules| <= 1 && forall i :: 0 <= i < |userRules| ==> userRules[i].priority == UserRulePriority
    ensures policy.name == APISecurityPolicyName(cluster.name)
    ensures policy.description == PolicyDescription && policy.defaultAction == ActionDeny403
    ensures StrictlyIncreasing(policy.rules)
    ensures forall i :: 0 <= i < |policy.rules| ==> policy.rules[i].priority != MaxInt32
    ensures |policy.rules| == |userRules| + 2
    ensures forall i :: 0 <= i < |userRules| ==> policy.rules[i] == userRules[i]
    ensures policy.rules[|userRules|] == PolicyRule(ActionAllow, NATRuleDescription, natIPs, NATRulePriority)
    ensures policy.rules[|userRules| + 1] == PolicyRule(ActionAllow, DefaultAllowListDescription, r.defaultAPIAllowList, DefaultAllowListPriority)
  {
    var rules := userRules + DefaultRules(r, natIPs);
    Policy(APISecurityPolicyName(cluster.name), PolicyDescription, ActionDeny403, rules)
  }

  /** `PolicyReconciler.Reconcile`: parse the annotation (stopping before any
      call when it does not parse), resolve the management cluster's NAT IPs
      (stopping when that fails), then apply the policy. */
  function Reconcile(r: PolicyReconciler, valid: CidrCheck, cluster: GCPCluster, natIPs: Result<seq<string>>, respond: Responder): (run: Run<Call>)
    ensures AnnotationRejected(valid, cluster) ==>
              run == Run([], Fail(InvalidCIDRs(cluster.annotations[AnnotationAPIAllowListSubnets])))
    ensures !AnnotationRejected(valid, cluster) ==> |run.calls| >= 1 && run.calls[0] == ResolveIPs(r.managementCluster)
    ensures !AnnotationRejected(valid, cluster) && natIPs.Err? ==>
              run == Run([ResolveIPs(r.managementCluster)], Fail(natIPs.error))
    ensures |run.calls| <= 2
    ensures |run.calls| == 2 ==>
              && !AnnotationRejected(valid, cluster) && natIPs.Ok?
              && run.calls[1].ApplyPolicy?
              && run.calls[1].policy.name == APISecurityPolicyName(cluster.name)
              && StrictlyIncreasing(run.calls[1].policy.rules)
              && run.outcome == respond(run.calls[1])
    ensures run.outcome == Pass ==> |run.calls| == 2
    ensures !AnnotationRejected(valid, cluster) && natIPs.Ok? ==>
              var apply := ApplyPolicy(DesiredPolicy(r, cluster, UserRules(valid, cluster).value, natIPs.value));
              run == Run([ResolveIPs(r.managementCluster), apply], respond(apply))
  {
    match UserRules(valid, cluster)
    case Err(e) => Run([], Fail(e))
    case Ok(userRules) =>
      var resolve := ResolveIPs(r.managementCluster);
      match natIPs
      case Err(e) => Run([resolve], Fail(e))
      case Ok(ips) =>
        var apply := ApplyPolicy(DesiredPolicy(r, cluster, userRules, ips));
        Run([resolve, apply], respond(apply))
  }

  /** `PolicyReconciler.ReconcileDelete`: exactly one call, deleting the policy by its name. */
  function ReconcileDelete(cluster: GCPCluster, respond: Responder): (run: Run<Call>)
    ensures run.calls == [DeletePolicy(APISecurityPolicyName(cluster.name))]
    ensures run.outcome == respond(run.calls[0])
  {
    var call := DeletePolicy(APISecurityPolicyName(cluster.name));
    Run([call], respond(call))
  }

  /** The deletion path removes the very policy the normal path applies. */
  lemma DeleteTargetsAppliedPolicy(r: PolicyReconciler, valid: CidrCheck, cluster: GCPCluster, natIPs: Result<seq<string>>, respond: Responder)
    requires |Reconcile(r, valid, cluster, natIPs, respond).calls| == 2
    ensures Reconcile(r, valid, cluster, natIPs, respond).calls[1].policy.name
         == ReconcileDelete(cluster, respond).calls[0].name
  {
  }

  /** Strictly increasing priorities are distinct, also once translated. */
  lemma IncreasingIsDistinct(rules: seq<PolicyRule>)
    requires StrictlyIncreasing(rules)
    ensures DistinctPriorities(ToGcpRules(rules))
  {
    var out := ToGcpRules(rules);
    forall i, j | 0 <= i < j < |out|
      ensures out[i].priority != out[j].priority
    {
      assert out[i].priority == rules[i].priority;
      assert out[j].priority == rules[j].priority;
    }
  }

  /** The priorities of a translated rule list that ends in the NAT rule and the
      default allow-list rule, after at most one user rule. */
  lemma DefaultTailPriorities(user: seq<GcpRule>, n: nat)
    requires n <= 1 && |user| == n + 2
    requires user[n].priority == NATRulePriority && user[n + 1].priority == DefaultAllowListPriority
    requires n == 1 ==> user[0].priority == UserRulePriority
    ensures Priorities(user) == {NATRulePriority, DefaultAllowListPriority} + (if n == 0 then {} else {UserRulePriority})
  {
    var last := user[n..];
    assert Priorities(last[1..][1..]) == {};
    assert Priorities(last) == {NATRulePriority, DefaultAllowListPriority};
    if n == 1 {
      assert user[1..] == last;
    } else {
      assert user == last;
    }
  }

  /** The priorities of the reconciler's own rules: 1 and 2, and 0 with a user rule. */
  function OwnPriorities(userRules: seq<PolicyRule>): set<int32>
  {
    {NATRulePriority, DefaultAllowListPriority} + (if userRules == [] then {} else {UserRulePriority})
  }

  /** The priorities the desired policy uses are the reconciler's own. */
  lemma DesiredPriorities(r: PolicyReconciler, cluster: GCPCluster, userRules: seq<PolicyRule>, natIPs: seq<string>)
    requires |userRules| <= 1 && forall i :: 0 <= i < |userRules| ==> userRules[i].priority == UserRulePriority
    ensures Priorities(ToGcpRules(DesiredPolicy(r, cluster, userRules, natIPs).rules)) == OwnPriorities(userRules)
  {
    var policy := DesiredPolicy(r, cluster, userRules, natIPs);
    var user := ToGcpRules(policy.rules);
    DefaultTailPriorities(user, |userRules|);
  }

  /** End to end: when the policy already exists and every rule call of the
      client is applied, the remote policy ends up holding exactly the default
      rule, the NAT rule, the default allow-list rule, and the user rule when
      the annotation lists CIDRs. */
  lemma ReconciledPolicyKeys(
    r: PolicyReconciler, cluster: GCPCluster, userRules: seq<PolicyRule>, natIPs: seq<string>,
    api: SecurityClient.PoliciesApi, m: RemotePolicy)
    requires |userRules| <= 1 && forall i :: 0 <= i < |userRules| ==> userRules[i].priority == UserRulePriority
    requires api.current.Ok? && m.Keys == Priorities(api.current.value)
    ensures SecurityClient.Updated(m, api, DesiredPolicy(r, cluster, userRules, natIPs)).Keys
         == {MaxInt32} + OwnPriorities(userRules)
  {
    DesiredPriorities(r, cluster, userRules, natIPs);
    SecurityClient.ExistingPolicyKeys(DesiredPolicy(r, cluster, userRules, natIPs), api, m);
  }

  /** ... and those rules carry the NAT IPs, the default allow-list, and the
      deny action. */
  lemma ReconciledPolicyValues(
    r: PolicyReconciler, cluster: GCPCluster, userRules: seq<PolicyRule>, natIPs: seq<string>,
    api: SecurityClient.PoliciesApi, m: RemotePolicy)
    requires |userRules| <= 1 && forall i :: 0 <= i < |userRules| ==> userRules[i].priority == UserRulePriority
    requires api.current.Ok? && m.Keys == Priorities(api.current.value)
    ensures var after := SecurityClient.Updated(m, api, DesiredPolicy(r, cluster, userRules, natIPs));
            && MaxInt32 in after && NATRulePriority in after && DefaultAllowListPriority in after
            && after[MaxInt32].action == ActionDeny403
            && after[NATRulePriority].srcIpRanges == natIPs
            && after[DefaultAllowListPriority].srcIpRanges == r.defaultAPIAllowList
  {
    var policy := DesiredPolicy(r, cluster, userRules, natIPs);
    var n := |userRules|;
    var natRule := policy.rules[n];
    var defaults := policy.rules[n + 1];
    IncreasingIsDistinct(policy.rules);
    SecurityClient.ExistingPolicyValues(policy, api, m);
    var after := SecurityClient.Updated(m, api, policy);
    assert after[natRule.priority] == ToGcpRule(natRule);
    assert after[defaults.priority] == ToGcpRule(defaults);
  }
}

=== FILE: security_types.dfy ===
/**
 The security policy as the operator describes it (`security.Policy`), the
 policy as the compute API receives it (`computepb.SecurityPolicy`), and the
 translation between them (`toGCPSecurityPolicy`, `getDefaultRule`).

 A policy's rules are keyed by a signed 32-bit priority; the rule at the
 largest priority is the default rule, which carries the policy's default
 action for traffic no other rule matches.
 */
module SecurityTypes {

  newtype int32 = x: int | -0x8000_0000 <= x < 0x8000_0000

  /** `math.MaxInt32` */
  const MaxInt32: int32 := 0x7fff_ffff

  const ActionAllow := "allow"
  const ActionDeny403 := "deny(403)"
  const SecurityPolicyVersionedExpr := "SRC_IPS_V1"
  const DefaultRuleDescription := "Default rule, higher priority overrides it"
  const DefaultRuleIPRanges := "*"
  const DefaultRulePriority: int32 := MaxInt32

  /** `security.PolicyRule` */
  datatype PolicyRule = PolicyRule(action: string, description: string, sourceIPRanges: seq<string>, priority: int32)

  /** `security.Policy` */
  datatype Policy = Policy(name: string, description: string, defaultAction: string, rules: seq<PolicyRule>)

  /** `computepb.SecurityPolicyRule`, with its matcher flattened into the rule. */
  datatype GcpRule = GcpRule(action: string, description: string, srcIpRanges: seq<string>, versionedExpr: string, priority: int32)

  /** `computepb.SecurityPolicy` as sent on insert (its self-link is not modelled). */
  datatype GcpPolicy = GcpPolicy(description: string, name: string, rules: seq<GcpRule>)

  /** `getDefaultRule(defaultAction)`: matches every source at the largest priority. */
  function GetDefaultRule(defaultAction: string): (rule: GcpRule)
    ensures rule.priority == MaxInt32
    ensures rule.action == defaultAction
    ensures rule.srcIpRanges == [DefaultRuleIPRanges]
    ensures rule.description == DefaultRuleDescription && rule.versionedExpr == SecurityPolicyVersionedExpr
  {
    GcpRule(defaultAction, DefaultRuleDescription, [DefaultRuleIPRanges], SecurityPolicyVersionedExpr, DefaultRulePriority)
  }

  /** One user rule as the compute API receives it. */
  function ToGcpRule(rule: PolicyRule): GcpRule
  {
    GcpRule(rule.action, rule.description, rule.sourceIPRanges, SecurityPolicyVersionedExpr, rule.priority)
  }

  /** Reads a compute-API rule back as a user rule. */
  function FromGcpRule(rule: GcpRule): PolicyRule
  {
    PolicyRule(rule.action, rule.description, rule.srcIpRanges, rule.priority)
  }

  /** The translation loop of `toGCPSecurityPolicy`, one compute rule per user rule. */
  function ToGcpRules(rules: seq<PolicyRule>): (out: seq<GcpRule>)
    ensures |out| == |rules|
    ensures forall i :: 0 <= i < |rules| ==>
              && out[i].action == rules[i].action
              && out[i].description == rules[i].description
              && out[i].srcIpRanges == rules[i].sourceIPRanges
              && out[i].priority == rules[i].priority
              && out[i].versionedExpr == SecurityPolicyVersionedExpr
  {
    if |rules| == 0 then [] else [ToGcpRule(rules[0])] + ToGcpRules(rules[1..])
  }

  /** Reads every compute-API rule back. */
  function FromGcpRules(rules: seq<GcpRule>): (out: seq<PolicyRule>)
    ensures |out| == |rules|
    ensures forall i :: 0 <= i < |rules| ==> out[i] == FromGcpRule(rules[i])
  {
    if |rules| == 0 then [] else [FromGcpRule(rules[0])] + FromGcpRules(rules[1..])
  }

  /** `toGCPSecurityPolicy`: the default rule first, then the user rules in order. */
  function ToGCPSecurityPolicy(policy: Policy): (gcp: GcpPolicy)
    ensures gcp.name == policy.name && gcp.description == policy.description
    ensures |gcp.rules| == |policy.rules| + 1
    ensures gcp.rules[0].priority == MaxInt32
    ensures gcp.rules[0].action == policy.defaultAction
    ensures gcp.rules[0].srcIpRanges == ["*"]
    ensures forall i :: 0 <= i < |policy.rules| ==>
              && gcp.rules[i + 1].action == policy.rules[i].action
              && gcp.rules[i + 1].srcIpRanges == policy.rules[i].sourceIPRanges
              && gcp.rules[i + 1].priority == policy.rules[i].priority
  {
    GcpPolicy(policy.description, policy.name, [GetDefaultRule(policy.defaultAction)] + ToGcpRules(policy.rules))
  }

  /** Nothing of a user rule is lost in translation: the compute policy minus
      its default rule reads back as exactly the user rules. */
  lemma TranslationRoundTrip(policy: Policy)
    ensures FromGcpRules(ToGCPSecurityPolicy(policy).rules[1..]) == policy.rules
  {
    var out := FromGcpRules(ToGCPSecurityPolicy(policy).rules[1..]);
    assert forall i :: 0 <= i < |policy.rules| ==> out[i] == policy.rules[i];
  }
}

=== FILE: strings.dfy ===
/**
 The few pieces of Go's `strings` package the operator relies on:
 `strings.Split` with a one-character separator, its inverse `strings.Join`,
 and `strings.LastIndex` for a single character.
 */
module Strings {

  /** Number of occurrences of `c` in `s`. */
  function Count(s: string, c: char): nat
  {
    if |s| == 0 then 0 else (if s[0] == c then 1 else 0) + Count(s[1..], c)
  }

  /** `strings.Split(s, string(sep))`: the maximal separator-free pieces of `s`.
      Like Go, the empty string splits into one empty piece, and every
      separator at an end or next to another separator yields an empty piece. */
  function Split(s: string, sep: char): (parts: seq<string>)
    ensures |parts| >= 1
    ensures forall i :: 0 <= i < |parts| ==> sep !in parts[i]
  {
    if |s| == 0 then [""]
    else
      var rest := Split(s[1..], sep);
      if s[0] == sep then [""] + rest
      else [[s[0]] + rest[0]] + rest[1..]
  }

  /** `strings.Join(parts, string(sep))`. */
  function Join(parts: seq<string>, sep: char): string
  {
    if |parts| == 0 then ""
    else if |parts| == 1 then parts[0]
    else parts[0] + [sep] + Join(parts[1..], sep)
  }

  /** Joining the pieces of a split gives back the original string. */
  lemma {:induction false} JoinSplit(s: string, sep: char)
    ensures Join(Split(s, sep), sep) == s
    decreases |s|
  {
    if |s| > 0 {
      var rest := Split(s[1..], sep);
      JoinSplit(s[1..], sep);
      if s[0] == sep {
        assert Split(s, sep) == [""] + rest;
        assert Join(Split(s, sep), sep) == "" + [sep] + Join(rest, sep);
        assert s == [s[0]] + s[1..];
      } else {
        var head := [s[0]] + rest[0];
        assert Split(s, sep) == [head] + rest[1..];
        if |rest| == 1 {
          assert Join(rest, sep) == rest[0];
        } else {
          assert Join(rest, sep) == rest[0] + [sep] + Join(rest[1..], sep);
          assert ([head] + rest[1..])[1..] == rest[1..];
        }
        assert s == [s[0]] + s[1..];
      }
    }
  }

  /** Splitting at one separator concatenates the splits of both sides. */
  lemma {:induction false} SplitAt(a: string, sep: char, b: string)
    ensures Split(a + [sep] + b, sep) == Split(a, sep) + Split(b, sep)
    decreases |a|
  {
    var s := a + [sep] + b;
    if |a| == 0 {
      assert s == [sep] + b;
      assert s[1..] == b;
    } else {
      assert s[1..] == a[1..] + [sep] + b;
      SplitAt(a[1..], sep, b);
      if a[0] != sep {
        var rest := Split(a[1..], sep);
        assert Split(a, sep) == [[a[0]] + rest[0]] + rest[1..];
      }
    }
  }

  /** A separator-free string splits into itself alone. */
  lemma {:induction false} SplitNoSeparator(w: string, sep: char)
    requires sep !in w
    ensures Split(w, sep) == [w]
    decreases |w|
  {
    if |w| > 0 {
      assert sep !in w[1..] by {
        forall i | 0 <= i < |w[1..]| ensures w[1..][i] != sep {
          assert w[1..][i] == w[i + 1];
        }
      }
      SplitNoSeparator(w[1..], sep);
      assert [w[0]] + w[1..] == w;
    }
  }

  /** Splitting a join of separator-free pieces gives back the pieces. */
  lemma {:induction false} SplitJoin(parts: seq<string>, sep: char)
    requires |parts| >= 1
    requires forall i :: 0 <= i < |parts| ==> sep !in parts[i]
    ensures Split(Join(parts, sep), sep) == parts
    decreases |parts|
  {
    if |parts| == 1 {
      SplitNoSeparator(parts[0], sep);
    } else {
      SplitNoSeparator(parts[0], sep);
      SplitJoin(parts[1..], sep);
      SplitAt(parts[0], sep, Join(parts[1..], sep));
      assert parts == [parts[0]] + parts[1..];
    }
  }

  /** A split has one more piece than the string has separators. */
  lemma {:induction false} SplitLength(s: string, sep: char)
    ensures |Split(s, sep)| == Count(s, sep) + 1
    decreases |s|
  {
    if |s| > 0 {
      SplitLength(s[1..], sep);
    }
  }

  /** `strings.LastIndex(s, string(c))`: the position of the last `c`, or -1. */
  function LastIndex(s: string, c: char): (i: int)
    ensures -1 <= i < |s|
    ensures i == -1 ==> forall k :: 0 <= k < |s| ==> s[k] != c
    ensures 0 <= i ==> s[i] == c && forall k :: i < k < |s| ==> s[k] != c
  {
    LastIndexBelow(s, c, |s|)
  }

  /** The position of the last `c` among the first `n` characters of `s`, or -1. */
  function LastIndexBelow(s: string, c: char, n: nat): (i: int)
    requires n <= |s|
    ensures -1 <= i < n
    ensures i == -1 ==> forall k :: 0 <= k < n ==> s[k] != c
    ensures 0 <= i ==> s[i] == c && forall k :: i < k < n ==> s[k] != c
    decreases n
  {
    if n == 0 then -1
    else if s[n - 1] == c then n - 1
    else LastIndexBelow(s, c, n - 1)
  }

  /** `a` is `b` with some elements left out, the rest in their original order. */
  predicate IsSubsequence<T(==)>(a: seq<T>, b: seq<T>)
    decreases |b|
  {
    if |a| == 0 then true
    else if |b| == 0 then false
    else if a[0] == b[0] then IsSubsequence(a[1..], b[1..])
    else IsSubsequence(a, b[1..])
  }
}

=== FILE: wrappers.dfy ===
/**
 Go's `(value, error)` and `error` returns as datatypes, the errors the
 operator creates or receives from the Kubernetes store, the compute API and
 the NAT resolver, and the record of the calls a component made.
 */
module Wrappers {

  /** What a collaborator error is, as far as the operator ever inspects it:
      HTTP 404 / Kubernetes NotFound, HTTP 409 (already exists), or anything else. */
  datatype ErrorKind = NotFound | Conflict | Other

  datatype Error =
    /** An error returned by a collaborator call, propagated unchanged. */
    | Remote(kind: ErrorKind)
    /** `value: %q contains invalid CIDRs` from the strict CIDR parser. */
    | InvalidCIDRs(value: string)
    /** `annotation %s contains invalid CIDRs` from the controller's own parser. */
    | InvalidAnnotation(key: string)
    /** `cluster does not have backend service` */
    | NoBackendService
    /** `cluster backend service not deleted yet` */
    | BackendServiceNotDeleted
    /** `cluster %s/%s does not have router yet` */
    | NoRouterYet(namespace: string, name: string)
    /** `cluster %s/%s has no NAT IPs yet` */
    | NoNATIPsYet(namespace: string, name: string)

  /** A Go pointer that may be nil. */
  datatype Option<+T> = None | Some(value: T)

  /** A Go `(T, error)` pair where exactly one side is meaningful. */
  datatype Result<+T> = Ok(value: T) | Err(error: Error) {
    predicate IsFailure() {
      Err?
    }

    function PropagateFailure<U>(): Result<U>
      requires Err?
    {
      Err(error)
    }

    function Extract(): T
      requires Ok?
    {
      value
    }
  }

  /** A Go function that returns only `error`. */
  datatype Outcome = Pass | Fail(error: Error)

  /** The collaborator calls a component issued, in order, and what it returned. */
  datatype Run<C> = Run(calls: seq<C>, outcome: Outcome)

  /** Prefix the calls of an earlier, successful step to a later run. */
  function After<C>(earlier: seq<C>, later: Run<C>): (r: Run<C>)
    ensures r.outcome == later.outcome
    ensures |r.calls| == |earlier| + |later.calls|
    ensures r.calls[..|earlier|] == earlier && r.calls[|earlier|..] == later.calls
  {
    Run(earlier + later.calls, later.outcome)
  }
}
